=== FILE: README.md ===
# kpub: classification and tally rules

This project models the pure logic of `kpub`, a small publication database
for an observatory. The database itself is an SQLite table of ADS records.
The model covers four parts.

- **The affiliation classifier `get_aff_type`.** It splits an affiliation
  string on `;` and walks an ordered table of `(type, search strings)` rules.
  The answer is the type of the first rule that has a string occurring in
  some segment, and `"other"` when no rule matches. A string for which
  Python's `isupper()` holds is searched case-sensitively. Any other string is
  searched case-insensitively. The Keck table (`keck`, then `usa`) is
  modelled verbatim.
- **The Keck legacy-spreadsheet scripts.**
  - The affiliation-code check compares the hand-entered codes 1/2/3 of the
    first three authors with the classifier's types for the first three
    stored affiliations, and reports rows that disagree.
  - The export and import transforms turn spreadsheet rows into import
    records. They drop rows without a bibcode, set the KOA archive flag, and
    reverse the order.
- **`PublicationDB` selection logic.**
  - The `prompt_grouping` menu, as a function of the typed answer.
  - `query`, as a filter predicate over an in-memory sequence of records.
  - `to_markdown`'s grouping of the queried rows by year or by month.
- **`PublicationDB` aggregations.**
  - `get_metrics`, with its per-mission and per-science tallies.
  - `get_annual_publication_count` and its cumulative variant, including
    the combined `'both'` column.
  - The rankings `get_most_cited` and `get_most_active_first_authors`.

Modules:

- `Wrappers`: `Option` and `Result`.
- `Text`: ASCII case mapping, `isupper`, `strip`, `split`, substring search
  and decimal rendering.
- `Affiliation`: the classifier.
- `KeckTable`: the shipped rule table.
- `LegacyCheck`: the row check.
- `LegacyImport`: the export and import transforms.
- `Menu`: the grouping menu.
- `Records`: the record type and `query`.
- `Grouping`: the `to_markdown` grouping.
- `Metrics`: `get_metrics`.
- `Annual`: the annual counts.
- `Rankings`: the two rankings.

The database is a `seq<Pub>`. It stands for the rows in the order the
`ORDER BY date DESC` query delivers them, so "query order" in the contracts
means this sequence's order. Each of `get_metrics`' stray `KeyError`s is
modelled as an error result. So are the legacy check's `KeyError` on an
unknown code and its `IndexError` on a short affiliation list.

## Model

| member | source | states |
|---|---|---|
| Affiliation.FirstMatch | kpub/plot.py:377-388 | the chosen rule matches some segment, no earlier rule matches any segment, and there is no choice exactly when no rule matches |
| Affiliation.Classify | kpub/plot.py:370-388 | with no rule matching any `;`-segment the type is `"other"`; any other type is that of a rule that matches some segment |
| Affiliation.ClassifyIsFirstMatch | kpub/plot.py:377-386 | the result is the type of the first rule, in table order, with a string occurring in some `;`-segment |
| Affiliation.RuleOrderBeatsSegmentOrder | kpub/plot.py:378-381 | an earlier rule matching a later segment wins over a later rule matching an earlier segment |
| Affiliation.NoMatchIsOther | kpub/plot.py:377-388 | when no rule matches any segment the result is `"other"` |
| Affiliation.EmptyTableIsOther | kpub/plot.py:378-388 | with an empty table every string is `"other"` |
| Affiliation.ClassifyRange | kpub/plot.py:378-388 | the result is `"other"` or the type of some rule in the table |
| Affiliation.AllCapsNeedsUpperCase | kpub/plot.py:382-384 | an all-caps string never matches a segment that has no upper-case letter (case-sensitive search) |
| Affiliation.CaseInsensitiveMatch | kpub/plot.py:385-387 | a string that is not all caps matches a segment exactly when it matches its lower-case and its upper-case form |
| Affiliation.AppendRuleKeepsMatches | kpub/plot.py:378-388 | appending a rule leaves the first matching rule unchanged when one already existed |
| Affiliation.AppendRule | kpub/plot.py:378-388 | appending a rule can only change answers that were `"other"` |
| Affiliation.GetAffType | data/keck/auth_aff.py:109-133 | the three nested loops with early return compute the first-match classification |
| KeckTable.CaltechUsaIsKeck | data/keck/auth_aff.py:9-51 | "Caltech, Pasadena, CA, USA" matches the `usa` rule too, but the earlier `keck` rule makes it keck |
| KeckTable.KeckInLaterSegmentWins | data/keck/auth_aff.py:116-131 | "NASA Ames; Caltech" splits into two segments and the first matches `usa`, yet the answer is keck |
| KeckTable.SingleSegmentCaltech | data/keck/auth_aff.py:13-16 | any affiliation without `;` containing "caltech" in any case is keck |
| KeckTable.KeckMatchesObservatoryName | data/keck/auth_aff.py:13 | the non-all-caps string `keck` matches "W. M. Keck Observatory" |
| KeckTable.AllCapsPatternsIgnoreLowerCase | data/keck/auth_aff.py:17-22 | `CIT` and `UCLA` never match a segment without upper-case letters |
| LegacyCheck.LegacyCode | data/keck/auth_aff.py:65-71 | a code is a digit that is the first non-blank character of the cell; with no code, every digit of the cell comes after some non-blank character |
| LegacyCheck.LegacyCodeIsFirstNonBlank | data/keck/auth_aff.py:65-71 | a cell has a code exactly when its first non-blank character is a digit, and the code is that digit |
| LegacyCheck.BlankCellHasNoCode | data/keck/auth_aff.py:65-71 | a blank cell has no code |
| LegacyCheck.LegacyType | data/keck/auth_aff.py:93-96 | the mapping is defined exactly for no code and the digits 1, 2 and 3; no code maps to `''`, `1` to `keck`, `2` to `usa` and `3` to `other` |
| LegacyCheck.ExpectedTypes | data/keck/auth_aff.py:93-96 | the three types are defined exactly when the table knows all three codes, and are then their types in order; otherwise the failure names the code of the first of `AUaff1`, `AUaff2`, `AUaff3` the table lacks, the order in which the lookups raise `KeyError` |
| LegacyCheck.ComputedTypes | data/keck/auth_aff.py:84-90 | the computed list has three entries: the classifier's type of each stored affiliation, and `''` past the end of the stored list |
| LegacyCheck.Differing | data/keck/auth_aff.py:98-107 | the slots listed are exactly those where the two lists disagree, in ascending order |
| LegacyCheck.CheckRowAsWritten | data/keck/auth_aff.py:60-107 | as the script is written: a row is skipped exactly when it lacks a bibcode, a first code or a stored record; a checked row whose code the table lacks stops with that code; a checked row with a disagreeing slot past its stored list stops at the least such slot; the row stops exactly in these two cases; otherwise a disagreeing row is reported with every disagreeing slot and only those |
| LegacyCheck.CheckRow | data/keck/auth_aff.py:60-107 | the corrected check: a row is skipped exactly when it lacks a bibcode, a first code or a stored record; a checked row stops exactly when the table lacks one of its codes, naming that code; otherwise a disagreeing row is reported with every disagreeing slot and only those |
| LegacyCheck.ReportedIffSomeSlotDiffers | data/keck/auth_aff.py:98-107 | a checked row with known codes is reported exactly when one of its three slots disagrees, and passes exactly when all agree |
| LegacyCheck.PastListIsFirstMissing | data/keck/auth_aff.py:98-107 | for a checked row with known codes, some disagreeing slot lies past the stored list exactly when the script's first failing print exists, and that print is at the least such slot |
| LegacyCheck.AsWrittenDiffersOnlyByMissingSlot | data/keck/auth_aff.py:98-107 | the script as written and the corrected check differ exactly when the script stops on a slot past the stored list, and then the corrected check reports the row |
| LegacyCheck.AsWrittenAgreesWithEnoughAffiliations | data/keck/auth_aff.py:98-107 | with three or more stored affiliations the script as written and the corrected check agree |
| LegacyCheck.MissingAffiliationCrashes | data/keck/auth_aff.py:102-105 | a record with one affiliation and a row with a second code makes the script stop, where the corrected check reports slot 1 |
| LegacyCheck.ShortListCrashes | data/keck/auth_aff.py:84-107 | the same for any table that classifies the single affiliation as keck |
| LegacyCheck.CheckSheet | data/keck/auth_aff.py:59-107 | the corrected run reports exactly the mismatching rows before the first row that stops it, in spreadsheet order, and then that row's failure; it ends normally exactly when no checked row has a code the table lacks |
| LegacyCheck.CheckSheetAsWritten | data/keck/auth_aff.py:59-107 | the run as the script is written reports exactly the mismatching rows before the first row that stops it, in spreadsheet order, and then that row's failure; it ends normally exactly when no checked row has a code the table lacks or a disagreeing slot past its stored list |
| LegacyCheck.OutcomesAsWritten | data/keck/auth_aff.py:60-107 | one as-written outcome per spreadsheet row, in spreadsheet order |
| LegacyCheck.SheetAsWrittenAgreesWithEnoughAffiliations | data/keck/auth_aff.py:84-107 | when every listed record stores three or more affiliations, the run as written prints the same as the corrected run |
| LegacyCheck.SheetStopsOnShortList | data/keck/auth_aff.py:102-105 | on the one-row sheet of the example the run as written stops before reporting anything, where the corrected run reports the row |
| LegacyCheck.SummariseBeforeCrash | data/keck/auth_aff.py:59-107 | the report over row outcomes is exactly the mismatches before the first crash, in order, and the failure is that crash's or none |
| LegacyCheck.Mismatches | data/keck/auth_aff.py:97-107 | the mismatching outcomes kept are exactly those of the list: each kept one is a mismatch of the list and every mismatch of the list is kept |
| LegacyCheck.FirstCrash | data/keck/auth_aff.py:59-107 | the position is the first crashing outcome, or the length when none crashes |
| LegacyCheck.SummariseReports | data/keck/auth_aff.py:60-107 | every report is a row outcome; without a stop every mismatch is reported; a stop is the first crashing row's failure |
| LegacyCheck.CheckSheetReportsRows | data/keck/auth_aff.py:98-107 | every report is the outcome of some spreadsheet row |
| LegacyCheck.CheckSheetReportsEveryMismatch | data/keck/auth_aff.py:98-107 | when no row stops the corrected run, every disagreeing row is reported |
| LegacyCheck.CheckSheetAsWrittenReportsEveryMismatch | data/keck/auth_aff.py:98-107 | when no row stops the run as the script is written, every row the corrected check finds disagreeing is reported |
| LegacyImport.KeptMembers | data/keck/export_legacy_data.py:7-11 | a row survives exactly when its bibcode is non-empty, and nothing new appears |
| LegacyImport.KeptCount | data/keck/export_legacy_data.py:7-23 | as many rows survive as carry a bibcode |
| LegacyImport.ExportLegacy | data/keck/export_legacy_data.py:7-23 | one record per surviving row, in reverse order, with the bibcode and instruments copied, mission `keck`, science `''`, and the archive flag from the TAC field |
| LegacyImport.ArchiveIgnoresCase | data/keck/export_legacy_data.py:13-14 | the flag is 1 exactly when "koa" occurs in the TAC field in any case, and it is 0 or 1 |
| LegacyImport.LowerCaseKoaCounts | data/keck/export_legacy_data.py:13-14 | a lower-case "koa" sets the flag |
| LegacyImport.CheckLegacy | data/keck/check_keck_legacy_data.py:7-12 | one record per surviving row, in reverse order, with the bibcode copied, mission `keck` and science `''` |
| Menu.PromptGrouping | kpub/kpub.py:152-173 | no values gives `''`; any non-empty answer is `'unrelated'` or one of the values |
| Menu.MenuKeys | kpub/kpub.py:159-164 | the menu's keys are exactly `'0'` (when unrelated is offered) and `str(i+1)` for each value index |
| Menu.MenuLookup | kpub/kpub.py:159-164 | key `str(i+1)` maps to `values[i]`, and `'0'` maps to `'unrelated'` when offered |
| Menu.MenuValues | kpub/kpub.py:159-164 | every menu entry is `'unrelated'` or one of the values |
| Menu.SelectValue | kpub/kpub.py:162-173 | typing `str(i+1)` selects `values[i]` |
| Menu.SelectZero | kpub/kpub.py:159-173 | typing `0` selects `'unrelated'` only when it is offered, and `''` otherwise |
| Menu.OtherAnswerSelectsNothing | kpub/kpub.py:173 | any other answer gives `''` |
| Records.Query | kpub/kpub.py:225-244 | the result is no longer than the database and every returned record passes the filter |
| Records.QueryMembers | kpub/kpub.py:225-238 | a record is returned exactly when it is stored and passes the mission, science and year conditions |
| Records.MissionFilter | kpub/kpub.py:225-228 | without a mission, `unrelated` records never appear; with one, only that mission's records appear |
| Records.QueryAppend | kpub/kpub.py:225-244 | the filter keeps order: querying a concatenation concatenates the results |
| Records.QueryIdempotent | kpub/kpub.py:225-238 | querying the result again with the same arguments changes nothing |
| Grouping.NormaliseKey | kpub/kpub.py:263-264 | a key ending in `-00` ends in `-01` instead, with the rest kept; no key ends in `-00`; other keys are unchanged |
| Grouping.Article | kpub/kpub.py:267-270 | the stored article always has a property list; a missing one becomes empty and nothing else changes |
| Grouping.AddRow | kpub/kpub.py:265-271 | one step adds at most one group, keeps every earlier group's key and articles as a prefix, and leaves the article last in the group with its key |
| Grouping.GroupRows | kpub/kpub.py:260-271 | there are no more groups than rows, and no group is empty |
| Grouping.GroupRowsWellGrouped | kpub/kpub.py:260-271 | the groups have distinct keys, exist exactly for the keys of the rows, come in first-appearance order, and hold their rows' articles in row order |
| Grouping.EveryRowInOneGroup | kpub/kpub.py:260-271 | every row's article is in the group for its key, and exactly one group has that key |
| Grouping.GroupContents | kpub/kpub.py:260-271 | a group holds exactly the articles of the rows with its key, in query order |
| Grouping.GroupOrder | kpub/kpub.py:265-266 | groups come in the order their keys first appear among the rows |
| Grouping.GroupsAreClean | kpub/kpub.py:263-270 | every stored article has a property list and no group key ends in `-00` |
| Grouping.ZeroMonthJoinsJanuary | kpub/kpub.py:263-264 | month `2019-00` and month `2019-01` share the group `2019-01` |
| Metrics.Fraction | kpub/kpub.py:394-400 | a fraction is 0 when there are no publications, otherwise the share of the count, and lies in [0, 1] when the count is at most the total |
| Metrics.TallyOf | kpub/kpub.py:353-391 | the publication count is the number of rows; refereed, thesis and first-author counts are at most that; the author count is the number of distinct names any row lists, and the first-author count the number of distinct first authors |
| Metrics.TallyOfSnoc | kpub/kpub.py:327-387 | no rows tally zero; a row added at the end adds one publication, one refereed paper when its property list holds `REFEREED`, one thesis when its bibcode contains `PhDT`, and its citation count when present (nothing when it is null) |
| Metrics.GetMetrics | kpub/kpub.py:312-402 | the call fails exactly when a scanned record's mission is not configured, naming such a mission; otherwise the publication count is the number of scanned records, there is one entry per configured mission and science, each configured science's count is the number of scanned records of that science, and each mission's publication count the number of scanned records of that mission |
| Metrics.MetricsOf | kpub/kpub.py:332-393 | over rows whose missions are configured: each configured science counts the rows of that science; each configured mission counts the rows of that mission, the distinct names those rows list, and their distinct first authors |
| Metrics.MissionTallySnoc | kpub/kpub.py:332-387 | a configured mission's tallies start at zero; a row added at the end adds its publication, refereed mark, thesis mark and present citation count to that mission only when it belongs to the mission |
| Metrics.ByNameCounts | kpub/kpub.py:352-372 | the rows selected for a science or mission are as many as the rows carrying that name, and a mission's distinct authors and first authors are those its rows list |
| Metrics.ScienceCount | kpub/kpub.py:360-364 | the rows selected for a science are as many as the positions holding that science |
| Metrics.MissionCount | kpub/kpub.py:352-354 | the rows selected for a mission are as many as the positions holding that mission |
| Metrics.MissionAuthorSets | kpub/kpub.py:368-372 | the names listed by a mission's selected rows are exactly those listed by rows of that mission, for all authors and for first authors |
| Metrics.MissionCountsSum | kpub/kpub.py:332-387 | with distinct configured missions, the per-mission publication, refereed, thesis and citation counts sum to the overall counts |
| Metrics.PhdAndRefereedCounts | kpub/kpub.py:356-378 | the thesis count is the number of scanned bibcodes containing `PhDT`; the refereed count is the number with `REFEREED` in a present property list |
| Metrics.MetricsOrderIndependent | kpub/kpub.py:312-402 | reordering the database changes neither success nor any tally |
| Metrics.TallyPermutation | kpub/kpub.py:353-391 | one tally is the same for any reordering of its rows |
| Metrics.AuthorCountsPermutation | kpub/kpub.py:389-392 | the distinct-author counts do not depend on row order |
| Metrics.DistinctBound | kpub/kpub.py:389-392 | the number of distinct names is at most the number of entries |
| Metrics.AuthorsMembers | kpub/kpub.py:368-372 | a name is in the author list exactly when some scanned record lists it |
| Metrics.TotalCountsMarked | kpub/kpub.py:356-378 | a 0/1 tally counts exactly the rows it marks |
| Metrics.FractionsAreShares | kpub/kpub.py:394-400 | each mission and science fraction is its count's share of the publication count |
| Annual.AnnualPublicationCount | kpub/kpub.py:482-501 | one table per configured mission, and `'both'` has exactly the years of the requested range |
| Annual.AnnualKeys | kpub/kpub.py:484-496 | a year is in a mission's table exactly when it is in the range, or is a year from 2009 up to the end year that has papers |
| Annual.AnnualValues | kpub/kpub.py:486-496 | each entry is that year's paper count for the mission; it is 0 before 2009 |
| Annual.EarlyYearsLeakIn | kpub/kpub.py:488-496 | a paper from 2009 or later but before the begin year adds its year to the table |
| Annual.BothCountsListedMissions | kpub/kpub.py:498-500 | with distinct missions, `'both'` of a year from 2009 on counts that year's papers of the listed missions |
| Annual.AnnualPublicationCountCumulative | kpub/kpub.py:515-529 | one table per configured mission, and `'both'` has exactly the years of the range |
| Annual.CumulativeMonotone | kpub/kpub.py:517-528 | cumulative counts, per mission and in `'both'`, never decrease from year to year |
| Annual.CumulativeMatchesAnnual | kpub/kpub.py:486-524 | a cumulative entry is the count up to the year before plus that year's annual entry |
| Annual.CumulativeBothCountsListedMissions | kpub/kpub.py:517-528 | with distinct missions, cumulative `'both'` counts the listed missions' papers up to the year |
| Annual.CumulativeStep | kpub/kpub.py:519-524 | the count up to a year is the count up to the year before plus that year's papers |
| Rankings.SortDesc | kpub/kpub.py:421 | the descending ranking is a permutation of its input in non-increasing key order |
| Rankings.SliceLength | kpub/kpub.py:421 | the kept length is at most `n`, and index `i` is kept exactly when it lies below the slice stop, a negative stop counting back from the end |
| Rankings.MostCited | kpub/kpub.py:409-422 | the result has the length the slice keeps of the queried papers and runs in non-increasing citation order |
| Rankings.MostCitedIsTop | kpub/kpub.py:409-422 | the result has the slice's length and non-increasing citation counts, a missing count reading as 0; with the dropped papers it makes up the queried papers, and no dropped paper has more citations than a kept one |
| Rankings.MostCitedSelects | kpub/kpub.py:409-412 | every returned paper is stored and passes the mission and science filter |
| Rankings.TallyNamesKeys | kpub/kpub.py:440-448 | the tally has one entry per distinct first author |
| Rankings.TallyNamesCounts | kpub/kpub.py:440-447 | each entry counts that author's papers |
| Rankings.TallyNamesSum | kpub/kpub.py:440-447 | the tallies sum to the number of articles |
| Rankings.AuthorTalliesSum | kpub/kpub.py:436-450 | after sorting, the first-author tallies still sum to the number of related articles |
| Rankings.MaskIsPrefix | kpub/kpub.py:450-451 | on a descending ranking the mask keeps exactly the leading entries at or above the threshold |
| Rankings.MaskedZipIsPrefix | kpub/kpub.py:448-452 | the result is a prefix of the ranking; it holds every entry at or above `min_papers` and none below |
| Rankings.Zip | kpub/kpub.py:452 | pairs up to the shorter length, entry `k` pairing the `k`-th name with the `k`-th count |
| Rankings.MostActiveFirstAuthors | kpub/kpub.py:436-452 | every returned tally reaches `min_papers`, and the list runs in non-increasing order |
| Rankings.MostActiveFirstAuthorsSound | kpub/kpub.py:436-452 | every returned author has their true paper count, at least `min_papers`, in non-increasing order |
| Rankings.MostActiveFirstAuthorsComplete | kpub/kpub.py:436-452 | every first author with at least `min_papers` papers is returned |
| Text.SplitJoin | kpub/plot.py:377 | joining the `;`-segments with `;` gives back the affiliation string |
| Text.ShowNatInjective | kpub/kpub.py:162-163 | distinct indices get distinct menu keys |
| Text.ShowNatValue | kpub/kpub.py:162-163 | the decimal rendering reads back as the number |

## Left out

- SQLite storage is left out: the connection, schema, inserts, deletes and SQL text building. The database is an in-memory sequence.
- `ORDER BY date DESC` is not modelled. The sequence is taken to be in that order already.
- The ADS API, `update`, `add_interactively`, the prompt text and reading the answer are left out. These are network and terminal input/output.
- `display_abstract`, the jinja2 templates, CSV, Excel and pandas input/output are left out.
- All plotting in kpub/plot.py, and the CLI entry points with their YAML configuration, are left out.
- data/legacy/keck/reimport.py is not part of this model. It copies between databases through a module that is not available.
- `get_all`, `get_most_read` and `get_all_authors` are outside the modelled core. They reuse `query` and the ranking shapes above.
- `get_metadata` is outside the modelled core. It reads one stored record by bibcode with its own `SELECT` (kpub/kpub.py:246-249) and does not go through `query`.
- `re.search` is modelled as literal substring search. None of the table's strings contains a regular-expression metacharacter.
- `IGNORECASE` and `isupper` are modelled on ASCII letters only. Unicode case folding, for example in "University of Hawai‘i", is not modelled.
- `strip` removes ASCII whitespace and the control separators only. Unicode spaces are not modelled.
- Years are natural numbers. The stored year column is text and SQL compares it as a string. For four-digit years that order is the numeric one.
- LegacyCheck.LegacyCode treats only ASCII `0`-`9` as digits. Python's `isdigit` also accepts other Unicode digits such as `²`. For such a second or third code the script stops with a `KeyError` at data/keck/auth_aff.py:93-96; the model reads the cell as having no code. For such a first code the model skips the row instead of stopping.
- LegacyCodeIsFirstNonBlank inherits that restriction: it states the first non-blank character rule for ASCII digits only.
- CheckSheetReportsEveryMismatch is about the corrected run, whose only stop is an unknown code. For the run as written, CheckSheetAsWrittenReportsEveryMismatch takes the stop from the `IndexError` into account.
- Records always carry the `citation_count` and `property` keys, with `None` standing for JSON null. A record without the `citation_count` key would make `get_most_cited` raise `KeyError` (kpub/kpub.py:417), while `get_metrics` logs and skips it (kpub/kpub.py:383-387). That case is not modelled.
- Line 89 of data/keck/auth_aff.py calls an undefined `get_aff`. It is modelled as `get_aff_type`, which the script evidently meant.
- LegacyCheck.CheckSheet does not model the lines printed for mismatching rows before a stop. It only returns the reports collected so far and the failure.
- LegacyCheck.CheckSheetAsWritten does not model the lines printed before a stop either, including the bibcode and the earlier slot lines of the row whose slot fails. It only returns the reports of earlier rows and the failure.
- Metrics.GetMetrics keeps the author lists of a configured mission named `all` apart from the overall lists. In the source both are the same entry of `authors` and `first_authors` (kpub/kpub.py:341-346, 369-372). That mission's distinct-author counts (kpub/kpub.py:389-393) therefore cover every scanned record, not only the records of mission `all`. The model counts only that mission's records.
- Metrics.GetMetrics takes `author_norm` to be a list, never JSON null. A null `author_norm` makes `extend` raise an uncaught `TypeError` at kpub/kpub.py:369, and that stop is not modelled.
- Metrics.GetMetrics takes `first_author_norm` to be a string. A null or missing `first_author_norm` is still appended at kpub/kpub.py:370, and `np.unique` at kpub/kpub.py:390 then raises `TypeError` on the mixed object array. That stop is not modelled.
- LegacyImport.Archived upper-cases ASCII letters only. Python's `.upper()` at data/keck/export_legacy_data.py:13 is full Unicode: `'koẚ'.upper()` is `'KOAʾ'`, so the script archives such a row and the model does not.
- Metrics.GetMetrics keeps the tallies in structured maps instead of one dictionary of `"<name>_count"` keys. In the source these flat keys can collide. A configured mission and a configured science with the same name share `<name>_count`. A mission named `publication`, `refereed`, `citation` or `phd` shares an overall key. Such collisions are not modelled.
- Metrics.Fraction uses exact rationals instead of floating point.
- Metrics.GetMetrics does not model `np.unique` itself. Distinct counts are set cardinalities.
- Annual.AnnualPublicationCount does not model the `'both'` key colliding with a mission named `both`. The per-mission tables and `'both'` are kept apart.
- Rankings.SortDesc fixes one order for equal keys. numpy's `argsort` tie order is not modelled, and the ranking contracts say nothing about how ties are ordered.
- Rankings.MostActiveFirstAuthorsSound does not model the numpy arrays and the lazy `zip` object. The result is a finite sequence of (name, count) pairs.

## Findings

| source | as written | input that shows it | evidently intended | confidence | as-written member | corrected member |
|---|---|---|---|---|---|---|
| data/keck/auth_aff.py:102-107 | each disagreeing slot prints `raw['aff'][i]`, which raises `IndexError` when the record has fewer than `i+1` affiliations and ends the whole run | record `2020X` with one affiliation "Caltech", row codes `1`, `2`, blank: slot 1 computes `''` against `usa` and the print of `raw['aff'][1]` fails | report the disagreeing row like any other | medium, not executed | LegacyCheck.MissingAffiliationCrashes | LegacyCheck.CheckRow |

=== FILE: affiliation.dfy ===
/** The affiliation classifier `get_aff_type`: an affiliation string is cut
    into `;`-separated segments and an ordered list of rules, each a type and
    a list of search strings, is walked; the first rule with a string found
    in some segment gives the type, and "other" is the fall-through. An
    all-caps search string is matched case-sensitively, any other one
    case-insensitively. */
module Affiliation {
  import opened Text
  import opened Wrappers

  /** One entry of the rule table: a type and the strings that identify it. */
  datatype Rule = Rule(kind: string, patterns: seq<string>)

  /** The type returned when no rule matches. */
  const Other: string := "other"

  /** Does search string `p` occur in `segment`? Case-sensitive exactly when
      `p` is all caps. */
  predicate PatternMatches(p: string, segment: string) {
    if IsAllCaps(p) then IsSubstring(p, segment)
    else IsSubstring(Lower(p), Lower(segment))
  }

  /** Some search string of `rule` occurs in some segment. */
  predicate RuleMatches(rule: Rule, segments: seq<string>) {
    exists k, j :: 0 <= k < |rule.patterns| && 0 <= j < |segments|
      && PatternMatches(rule.patterns[k], segments[j])
  }

  /** Index of the first rule, in table order, that matches some segment. */
  function FirstMatch(segments: seq<string>, rules: seq<Rule>): (r: Option<nat>)
    ensures r.Some? ==> r.value < |rules| && RuleMatches(rules[r.value], segments)
    ensures r.Some? ==> forall i :: 0 <= i < r.value ==> !RuleMatches(rules[i], segments)
    ensures r.None? <==> forall i :: 0 <= i < |rules| ==> !RuleMatches(rules[i], segments)
    decreases |rules|
  {
    if |rules| == 0 then None
    else if RuleMatches(rules[0], segments) then Some(0)
    else match FirstMatch(segments, rules[1..])
      case None => None
      case Some(k) => Some(k + 1)
  }

  /** The type `get_aff_type` assigns to `affstr` under `rules`. */
  function Classify(affstr: string, rules: seq<Rule>): (r: string)
    ensures (forall i :: 0 <= i < |rules| ==> !RuleMatches(rules[i], Split(affstr, ';'))) ==> r == Other
    ensures r != Other ==>
              exists i :: 0 <= i < |rules| && RuleMatches(rules[i], Split(affstr, ';')) && r == rules[i].kind
  {
    match FirstMatch(Split(affstr, ';'), rules)
    case Some(i) => rules[i].kind
    case None => Other
  }

  /** The result is the type of the first rule, in declared order, that has
      a search string matching some segment. */
  lemma ClassifyIsFirstMatch(affstr: string, rules: seq<Rule>, i: nat)
    requires i < |rules| && RuleMatches(rules[i], Split(affstr, ';'))
    requires forall k :: 0 <= k < i ==> !RuleMatches(rules[k], Split(affstr, ';'))
    ensures Classify(affstr, rules) == rules[i].kind
  {
    var segments := Split(affstr, ';');
    var m := FirstMatch(segments, rules);
    assert m.Some?;
  }

  /** Without any matching rule the result is "other". */
  lemma NoMatchIsOther(affstr: string, rules: seq<Rule>)
    requires forall i :: 0 <= i < |rules| ==> !RuleMatches(rules[i], Split(affstr, ';'))
    ensures Classify(affstr, rules) == Other
  {
  }

  /** With an empty rule list every affiliation is "other". */
  lemma EmptyTableIsOther(affstr: string)
    ensures Classify(affstr, []) == Other
  {
  }

  /** The result is "other" or the type of some rule of the table. */
  lemma ClassifyRange(affstr: string, rules: seq<Rule>)
    ensures var r := Classify(affstr, rules);
      r == Other || exists i :: 0 <= i < |rules| && r == rules[i].kind
  {
    var m := FirstMatch(Split(affstr, ';'), rules);
    if m.Some? {
      assert Classify(affstr, rules) == rules[m.value].kind;
    }
  }

  /** Rule order beats segment order: when rule `i` matches a later segment
      and a later rule `j` matches an earlier segment, rule `i` still wins. */
  lemma RuleOrderBeatsSegmentOrder(affstr: string, rules: seq<Rule>, i: nat, j: nat, a: nat, b: nat)
    requires i < j < |rules|
    requires a < b < |Split(affstr, ';')|
    requires forall k :: 0 <= k < i ==> !RuleMatches(rules[k], Split(affstr, ';'))
    requires exists p :: p in rules[i].patterns && PatternMatches(p, Split(affstr, ';')[b])
    requires exists p :: p in rules[j].patterns && PatternMatches(p, Split(affstr, ';')[a])
    ensures Classify(affstr, rules) == rules[i].kind
  {
    var segments := Split(affstr, ';');
    var p :| p in rules[i].patterns && PatternMatches(p, segments[b]);
    var k :| 0 <= k < |rules[i].patterns| && rules[i].patterns[k] == p;
    assert RuleMatches(rules[i], segments);
    ClassifyIsFirstMatch(affstr, rules, i);
  }

  /** An all-caps search string never matches a segment that has no
      upper-case letter: the case-sensitive branch. */
  lemma {:induction false} AllCapsNeedsUpperCase(p: string, segment: string)
    requires IsAllCaps(p)
    requires forall k :: 0 <= k < |segment| ==> !IsUpperChar(segment[k])
    ensures !PatternMatches(p, segment)
  {
    if IsSubstring(p, segment) {
      var i := SubstringWitness(p, segment);
    }
  }

  /** Any other search string ignores the case of the segment: upper- or
      lower-casing the segment does not change whether it matches. */
  lemma CaseInsensitiveMatch(p: string, segment: string)
    requires !IsAllCaps(p)
    ensures PatternMatches(p, segment) <==> PatternMatches(p, Lower(segment))
    ensures PatternMatches(p, segment) <==> PatternMatches(p, Upper(segment))
  {
    LowerIdempotent(segment);
    LowerUpper(segment);
  }

  /** Appending a rule at the end of the table changes only results that
      were "other" before (and, precisely, only results where no rule
      matched). */
  lemma {:induction false} AppendRuleKeepsMatches(segments: seq<string>, rules: seq<Rule>, extra: Rule)
    requires FirstMatch(segments, rules).Some?
    ensures FirstMatch(segments, rules + [extra]) == FirstMatch(segments, rules)
    decreases |rules|
  {
    var all := rules + [extra];
    if !RuleMatches(rules[0], segments) {
      assert all[1..] == rules[1..] + [extra];
      AppendRuleKeepsMatches(segments, rules[1..], extra);
    }
  }

  lemma AppendRule(affstr: string, rules: seq<Rule>, extra: Rule)
    requires Classify(affstr, rules) != Other
    ensures Classify(affstr, rules + [extra]) == Classify(affstr, rules)
  {
    var segments := Split(affstr, ';');
    AppendRuleKeepsMatches(segments, rules, extra);
    var m := FirstMatch(segments, rules);
    assert (rules + [extra])[m.value] == rules[m.value];
  }

  /** `get_aff_type` as written: rules, then search strings, then segments,
      returning at the first hit. */
  method GetAffType(affstr: string, rules: seq<Rule>) returns (r: string)
    ensures r == Classify(affstr, rules)
  {
    var segments := Split(affstr, ';');
    for i := 0 to |rules|
      invariant forall k :: 0 <= k < i ==> !RuleMatches(rules[k], segments)
    {
      var patterns := rules[i].patterns;
      for k := 0 to |patterns|
        invariant forall kk, j :: 0 <= kk < k && 0 <= j < |segments| ==> !PatternMatches(patterns[kk], segments[j])
      {
        var pattern := patterns[k];
        for j := 0 to |segments|
          invariant forall jj :: 0 <= jj < j ==> !PatternMatches(pattern, segments[jj])
        {
          var hit := if IsAllCaps(pattern) then IsSubstring(pattern, segments[j])
                     else IsSubstring(Lower(pattern), Lower(segments[j]));
          if hit {
            assert PatternMatches(patterns[k], segments[j]);
            ClassifyIsFirstMatch(affstr, rules, i);
            return rules[i].kind;
          }
        }
      }
    }
    NoMatchIsOther(affstr, rules);
    return Other;
  }
}

=== FILE: annual.dfy ===
/** `get_annual_publication_count` and its cumulative variant: for every
    configured mission a year-to-count table over [year_begin, year_end],
    and a combined "both" table holding, per year, the sum over the mission
    list. The plain variant counts only papers from 2009 on and adds a key
    for every year from 2009 to year_end that has papers, even one before
    year_begin; the cumulative variant counts every paper up to the year. */
module Annual {
  import opened Records
  import opened Metrics

  /** The first year the plain variant counts. */
  const FirstCountedYear: int := 2009

  /** The two tables a call returns. */
  datatype AnnualCounts = AnnualCounts(perMission: map<string, map<int, nat>>, both: map<int, nat>)

  /** Weight 1 for papers of year `y`. */
  function InYear(y: int): Pub -> nat {
    (p: Pub) => if p.year == y then 1 else 0
  }

  /** Weight 1 for papers of year `y` or earlier. */
  function UpToYear(y: int): Pub -> nat {
    (p: Pub) => if p.year <= y then 1 else 0
  }

  /** The years from `yearBegin` to `yearEnd`: `range(year_begin, year_end + 1)`. */
  function YearRange(yearBegin: int, yearEnd: int): (years: set<int>)
    ensures forall y :: y in years <==> yearBegin <= y <= yearEnd
    decreases yearEnd - yearBegin
  {
    if yearEnd < yearBegin then {} else YearRange(yearBegin, yearEnd - 1) + {yearEnd}
  }

  /** Papers of mission `m` from year `y`. */
  function YearCount(db: seq<Pub>, m: string, y: int): nat {
    Total(MissionRows(db, m), InYear(y))
  }

  /** Papers of mission `m` from year `y` or earlier. */
  function CountUpTo(db: seq<Pub>, m: string, y: int): nat {
    Total(MissionRows(db, m), UpToYear(y))
  }

  /** The years the `GROUP BY year` query returns for mission `m`: those
      from 2009 on that have papers. */
  function GroupedYears(db: seq<Pub>, m: string): set<int> {
    set p | p in db && p.mission == m && p.year >= FirstCountedYear :: p.year as int
  }

  /** One mission's table: zeros over the range, then the grouped counts of
      years up to `yearEnd` written over them. */
  function MissionYears(db: seq<Pub>, m: string, yearBegin: int, yearEnd: int): map<int, nat> {
    (map y | y in YearRange(yearBegin, yearEnd) :: 0)
    + (map y | y in GroupedYears(db, m) && y <= yearEnd :: YearCount(db, m, y))
  }

  /** One mission's cumulative table. */
  function MissionYearsCumulative(db: seq<Pub>, m: string, yearBegin: int, yearEnd: int): map<int, nat> {
    map y | y in YearRange(yearBegin, yearEnd) :: CountUpTo(db, m, y)
  }

  /** The sum over the mission list (repeats included) of the year-`y`
      entries. */
  function SumAt(per: map<string, map<int, nat>>, missions: seq<string>, y: int): nat
    requires forall m :: m in missions ==> m in per && y in per[m]
    decreases |missions|
  {
    if |missions| == 0 then 0
    else SumAt(per, missions[..|missions| - 1], y) + per[missions[|missions| - 1]][y]
  }

  /** The "both" table over the given years. */
  function Both(per: map<string, map<int, nat>>, missions: seq<string>, years: set<int>): map<int, nat>
    requires forall m :: m in missions ==> m in per && years <= per[m].Keys
  {
    map y | y in years :: SumAt(per, missions, y)
  }

  /** `get_annual_publication_count`. */
  function AnnualPublicationCount(db: seq<Pub>, missions: seq<string>, yearBegin: int, yearEnd: int): (r: AnnualCounts)
    ensures r.perMission.Keys == set m | m in missions
    ensures r.both.Keys == YearRange(yearBegin, yearEnd)
  {
    var per := map m | m in missions :: MissionYears(db, m, yearBegin, yearEnd);
    AnnualCounts(per, Both(per, missions, YearRange(yearBegin, yearEnd)))
  }

  /** `get_annual_publication_count_cumulative`. */
  function AnnualPublicationCountCumulative(db: seq<Pub>, missions: seq<string>, yearBegin: int, yearEnd: int): (r: AnnualCounts)
    ensures r.perMission.Keys == set m | m in missions
    ensures r.both.Keys == YearRange(yearBegin, yearEnd)
  {
    var per := map m | m in missions :: MissionYearsCumulative(db, m, yearBegin, yearEnd);
    AnnualCounts(per, Both(per, missions, YearRange(yearBegin, yearEnd)))
  }

  lemma {:induction false} YearCountPositive(rows: seq<Pub>, y: int)
    ensures Total(rows, InYear(y)) > 0 <==> exists p :: p in rows && p.year == y
    decreases |rows|
  {
    if |rows| > 0 {
      var init := rows[..|rows| - 1];
      YearCountPositive(init, y);
      assert rows == init + [rows[|rows| - 1]];
    }
  }

  /** A year is in a mission's plain table exactly when it lies in the range,
      or it is from 2009 on, not after `yearEnd`, and has papers of that
      mission: so years before `yearBegin` can appear, years after
      `yearEnd` never do. */
  lemma AnnualKeys(db: seq<Pub>, missions: seq<string>, yearBegin: int, yearEnd: int, m: string, y: int)
    requires m in missions
    ensures var table := AnnualPublicationCount(db, missions, yearBegin, yearEnd).perMission[m];
      y in table <==> (yearBegin <= y <= yearEnd)
                      || (FirstCountedYear <= y <= yearEnd && YearCount(db, m, y) > 0)
  {
    YearCountPositive(MissionRows(db, m), y);
    MissionRowsMembers(db, m);
    if FirstCountedYear <= y && YearCount(db, m, y) > 0 {
      var p :| p in MissionRows(db, m) && p.year == y;
      assert y in GroupedYears(db, m);
    }
  }

  /** Every entry of a mission's plain table is the number of that
      mission's papers of the year when the year is 2009 or later, and 0
      before. */
  lemma AnnualValues(db: seq<Pub>, missions: seq<string>, yearBegin: int, yearEnd: int, m: string, y: int)
    requires m in missions
    requires y in AnnualPublicationCount(db, missions, yearBegin, yearEnd).perMission[m]
    ensures AnnualPublicationCount(db, missions, yearBegin, yearEnd).perMission[m][y]
            == if y >= FirstCountedYear then YearCount(db, m, y) else 0
  {
    if y >= FirstCountedYear && y !in GroupedYears(db, m) {
      YearCountPositive(MissionRows(db, m), y);
      MissionRowsMembers(db, m);
    }
  }

  /** The quirk: with `yearBegin` after 2009, a mission's earlier papers from
      2009 on still add their years to its table. */
  lemma EarlyYearsLeakIn(db: seq<Pub>, missions: seq<string>, yearBegin: int, yearEnd: int, p: Pub)
    requires p in db && p.mission in missions
    requires FirstCountedYear <= p.year < yearBegin <= yearEnd
    ensures p.year as int in AnnualPublicationCount(db, missions, yearBegin, yearEnd).perMission[p.mission]
  {
    assert p.year as int in GroupedYears(db, p.mission);
  }

  lemma {:induction false} SumAtIsMissionSum(per: map<string, map<int, nat>>, db: seq<Pub>, missions: seq<string>, y: int, w: Pub -> nat)
    requires forall m :: m in missions ==> m in per && y in per[m] && per[m][y] == Total(MissionRows(db, m), w)
    ensures SumAt(per, missions, y) == MissionSum(db, missions, w)
    decreases |missions|
  {
    if |missions| > 0 {
      SumAtIsMissionSum(per, db, missions[..|missions| - 1], y, w);
    }
  }

  /** With distinct mission names, "both" for a year from 2009 on in the
      range is the number of that year's papers of the listed missions. */
  lemma BothCountsListedMissions(db: seq<Pub>, missions: seq<string>, yearBegin: int, yearEnd: int, y: int)
    requires NoDuplicates(missions)
    requires yearBegin <= y <= yearEnd && y >= FirstCountedYear
    ensures AnnualPublicationCount(db, missions, yearBegin, yearEnd).both[y]
            == Total(InMissions(db, missions), InYear(y))
  {
    var r := AnnualPublicationCount(db, missions, yearBegin, yearEnd);
    forall m | m in missions ensures y in r.perMission[m] && r.perMission[m][y] == YearCount(db, m, y) {
      AnnualKeys(db, missions, yearBegin, yearEnd, m, y);
      AnnualValues(db, missions, yearBegin, yearEnd, m, y);
    }
    SumAtIsMissionSum(r.perMission, db, missions, y, InYear(y));
    MissionSumIsTotal(db, missions, InYear(y));
  }

  /** In the cumulative table, 'both' counts the papers of the listed
      missions from year `y` or earlier. */
  lemma CumulativeBothCountsListedMissions(db: seq<Pub>, missions: seq<string>, yearBegin: int, yearEnd: int, y: int)
    requires NoDuplicates(missions)
    requires yearBegin <= y <= yearEnd
    ensures AnnualPublicationCountCumulative(db, missions, yearBegin, yearEnd).both[y]
            == Total(InMissions(db, missions), UpToYear(y))
  {
    var r := AnnualPublicationCountCumulative(db, missions, yearBegin, yearEnd);
    forall m | m in missions ensures y in r.perMission[m] && r.perMission[m][y] == CountUpTo(db, m, y) {
    }
    SumAtIsMissionSum(r.perMission, db, missions, y, UpToYear(y));
    MissionSumIsTotal(db, missions, UpToYear(y));
  }

  lemma {:induction false} TotalMonotone(rows: seq<Pub>, w1: Pub -> nat, w2: Pub -> nat)
    requires forall p :: w1(p) <= w2(p)
    ensures Total(rows, w1) <= Total(rows, w2)
    decreases |rows|
  {
    if |rows| > 0 {
      TotalMonotone(rows[..|rows| - 1], w1, w2);
    }
  }

  lemma {:induction false} TotalAdd(rows: seq<Pub>, w: Pub -> nat, w1: Pub -> nat, w2: Pub -> nat)
    requires forall p :: w(p) == w1(p) + w2(p)
    ensures Total(rows, w) == Total(rows, w1) + Total(rows, w2)
    decreases |rows|
  {
    if |rows| > 0 {
      TotalAdd(rows[..|rows| - 1], w, w1, w2);
    }
  }

  /** A year's cumulative count is the previous year's plus the year's own
      papers. */
  lemma CumulativeStep(db: seq<Pub>, m: string, y: int)
    ensures CountUpTo(db, m, y) == CountUpTo(db, m, y - 1) + YearCount(db, m, y)
  {
    TotalAdd(MissionRows(db, m), UpToYear(y), UpToYear(y - 1), InYear(y));
  }

  lemma {:induction false} SumAtMonotone(per: map<string, map<int, nat>>, missions: seq<string>, y1: int, y2: int)
    requires forall m :: m in missions ==> m in per && y1 in per[m] && y2 in per[m] && per[m][y1] <= per[m][y2]
    ensures SumAt(per, missions, y1) <= SumAt(per, missions, y2)
    decreases |missions|
  {
    if |missions| > 0 {
      SumAtMonotone(per, missions[..|missions| - 1], y1, y2);
    }
  }

  /** Cumulative counts never decrease with the year, per mission and for
      "both". */
  lemma CumulativeMonotone(db: seq<Pub>, missions: seq<string>, yearBegin: int, yearEnd: int, y1: int, y2: int)
    requires yearBegin <= y1 <= y2 <= yearEnd
    ensures var r := AnnualPublicationCountCumulative(db, missions, yearBegin, yearEnd);
      (forall m :: m in missions ==> r.perMission[m][y1] <= r.perMission[m][y2])
      && r.both[y1] <= r.both[y2]
  {
    var r := AnnualPublicationCountCumulative(db, missions, yearBegin, yearEnd);
    forall m | m in missions ensures r.perMission[m][y1] <= r.perMission[m][y2] {
      TotalMonotone(MissionRows(db, m), UpToYear(y1), UpToYear(y2));
    }
    SumAtMonotone(r.perMission, missions, y1, y2);
  }

  /** The two variants agree: from 2009 on, a year's cumulative entry is
      the count up to the year before plus the plain entry. */
  lemma CumulativeMatchesAnnual(db: seq<Pub>, missions: seq<string>, yearBegin: int, yearEnd: int, m: string, y: int)
    requires m in missions
    requires yearBegin <= y <= yearEnd && y >= FirstCountedYear
    ensures AnnualPublicationCountCumulative(db, missions, yearBegin, yearEnd).perMission[m][y]
            == CountUpTo(db, m, y - 1) + AnnualPublicationCount(db, missions, yearBegin, yearEnd).perMission[m][y]
  {
    AnnualKeys(db, missions, yearBegin, yearEnd, m, y);
    AnnualValues(db, missions, yearBegin, yearEnd, m, y);
    CumulativeStep(db, m, y);
  }
}

=== FILE: grouping.dfy ===
/** The grouping step of `to_markdown`: the queried rows are collected into
    an insertion-ordered dictionary keyed by year, or by month with a "-00"
    month rewritten to "-01"; each row is appended to its group, and a
    missing `property` list becomes an empty one. */
module Grouping {
  import opened Text
  import opened Wrappers
  import opened Records

  predicate EndsWith(s: string, suffix: string) {
    |suffix| <= |s| && s[|s| - |suffix|..] == suffix
  }

  /** The "-00" month fix-up: only the last three characters can change. */
  function NormaliseKey(g: string): (r: string)
    ensures |r| == |g| && !EndsWith(r, "-00")
    ensures EndsWith(g, "-00") ==> EndsWith(r, "-01") && r[..|r| - 3] == g[..|g| - 3]
    ensures !EndsWith(g, "-00") ==> r == g
  {
    if EndsWith(g, "-00") then g[..|g| - 3] + "-01" else g
  }

  /** The group a row goes to: its year written in decimal, or its month. */
  function GroupKey(p: Pub, byMonth: bool): string {
    NormaliseKey(if byMonth then p.month else ShowNat(p.year))
  }

  /** The article stored for a row: its metadata with a missing `property`
      replaced by an empty list. */
  function Article(p: Pub): (a: Pub)
    ensures a.property.Some?
    ensures p.property.None? ==> a.property == Some([])
    ensures p.property.Some? ==> a == p
    ensures a.(property := p.property) == p
  {
    p.(property := Some(if p.property.None? then [] else p.property.value))
  }

  datatype Group = Group(key: string, articles: seq<Pub>)

  /** Position of the group with key `key`, if there is one. */
  function Find(groups: seq<Group>, key: string): (r: Option<nat>)
    ensures r.Some? ==> r.value < |groups| && groups[r.value].key == key
    ensures r.None? ==> forall i :: 0 <= i < |groups| ==> groups[i].key != key
    decreases |groups|
  {
    if |groups| == 0 then None
    else match Find(groups[..|groups| - 1], key)
      case Some(i) => Some(i)
      case None => if groups[|groups| - 1].key == key then Some(|groups| - 1) else None
  }

  /** One step of the loop: append to an existing group or open a new one
      at the end. */
  function AddRow(groups: seq<Group>, key: string, art: Pub): (r: seq<Group>)
    ensures |groups| <= |r| <= |groups| + 1
    ensures forall i :: 0 <= i < |groups| ==>
              && r[i].key == groups[i].key && |groups[i].articles| <= |r[i].articles|
              && r[i].articles[..|groups[i].articles|] == groups[i].articles
    ensures exists i :: 0 <= i < |r| && r[i].key == key && r[i].articles == (if i < |groups| then groups[i].articles else []) + [art]
  {
    match Find(groups, key)
    case Some(i) =>
      var r := groups[i := Group(key, groups[i].articles + [art])];
      assert r[i].key == key && r[i].articles == groups[i].articles + [art];
      r
    case None =>
      var r := groups + [Group(key, [art])];
      assert r[|groups|].key == key && r[|groups|].articles == [] + [art];
      r
  }

  /** The dictionary `to_markdown` builds from `rows`, in insertion order. */
  function GroupRows(rows: seq<Pub>, byMonth: bool): (groups: seq<Group>)
    ensures |groups| <= |rows|
    ensures forall i :: 0 <= i < |groups| ==> |groups[i].articles| > 0
    decreases |rows|
  {
    if |rows| == 0 then []
    else
      var last := rows[|rows| - 1];
      AddRow(GroupRows(rows[..|rows| - 1], byMonth), GroupKey(last, byMonth), Article(last))
  }

  /** `to_markdown`'s groups for the rows a query returns. */
  function ToMarkdownGroups(db: seq<Pub>, f: Filter, byMonth: bool): seq<Group> {
    GroupRows(Query(db, f), byMonth)
  }

  /** The key of every row, in row order. */
  function RowKeys(rows: seq<Pub>, byMonth: bool): (keys: seq<string>)
    ensures |keys| == |rows|
  {
    seq(|rows|, i requires 0 <= i < |rows| => GroupKey(rows[i], byMonth))
  }

  /** The articles of the rows with key `key`, in row order: the reference
      definition of one group. */
  function Members(rows: seq<Pub>, byMonth: bool, key: string): seq<Pub>
    decreases |rows|
  {
    if |rows| == 0 then []
    else
      var last := rows[|rows| - 1];
      var init := Members(rows[..|rows| - 1], byMonth, key);
      if GroupKey(last, byMonth) == key then init + [Article(last)] else init
  }

  /** Where `key` first occurs in `keys`. */
  function FirstIndex(keys: seq<string>, key: string): (n: nat)
    requires key in keys
    ensures n < |keys| && keys[n] == key
    ensures forall m :: 0 <= m < n ==> keys[m] != key
  {
    if keys[0] == key then 0 else 1 + FirstIndex(keys[1..], key)
  }

  /** No two groups share a key. */
  predicate DistinctKeys(groups: seq<Group>) {
    forall i, j :: 0 <= i < j < |groups| ==> groups[i].key != groups[j].key
  }

  /** There is a group for a key exactly when some row has that key. */
  ghost predicate Covers(groups: seq<Group>, keys: seq<string>) {
    forall k :: k in keys <==> Find(groups, k).Some?
  }

  /** Groups are ordered by the first appearance of their keys. */
  predicate Ordered(groups: seq<Group>, keys: seq<string>) {
    forall i, j :: 0 <= i < j < |groups| ==>
      groups[i].key in keys && groups[j].key in keys
      && FirstIndex(keys, groups[i].key) < FirstIndex(keys, groups[j].key)
  }

  /** Each group holds the articles of its rows, in row order. */
  predicate HoldsMembers(groups: seq<Group>, rows: seq<Pub>, byMonth: bool) {
    forall i :: 0 <= i < |groups| ==> groups[i].articles == Members(rows, byMonth, groups[i].key)
  }

  /** The grouping invariant. */
  ghost predicate WellGrouped(groups: seq<Group>, rows: seq<Pub>, byMonth: bool) {
    DistinctKeys(groups) && Covers(groups, RowKeys(rows, byMonth))
    && Ordered(groups, RowKeys(rows, byMonth)) && HoldsMembers(groups, rows, byMonth)
  }

  lemma {:induction false} FindSameKeys(g1: seq<Group>, g2: seq<Group>, key: string)
    requires |g1| == |g2|
    requires forall i :: 0 <= i < |g1| ==> g1[i].key == g2[i].key
    ensures Find(g1, key) == Find(g2, key)
    decreases |g1|
  {
    if |g1| > 0 {
      FindSameKeys(g1[..|g1| - 1], g2[..|g2| - 1], key);
    }
  }

  lemma FindAppend(groups: seq<Group>, g: Group, key: string)
    ensures Find(groups + [g], key) ==
      (if Find(groups, key).Some? then Find(groups, key)
       else if g.key == key then Some(|groups|) else None)
  {
    assert (groups + [g])[..|groups|] == groups;
  }

  lemma FirstIndexAppend(keys: seq<string>, k: string, key: string)
    requires key in keys
    ensures FirstIndex(keys + [k], key) == FirstIndex(keys, key)
  {
    var n := FirstIndex(keys, key);
    assert (keys + [k])[n] == key;
  }

  lemma FirstIndexNew(keys: seq<string>, k: string)
    requires k !in keys
    ensures FirstIndex(keys + [k], k) == |keys|
  {
    var m := FirstIndex(keys + [k], k);
  }

  lemma RowKeysAppend(rows: seq<Pub>, last: Pub, byMonth: bool)
    ensures RowKeys(rows + [last], byMonth) == RowKeys(rows, byMonth) + [GroupKey(last, byMonth)]
  {
  }

  lemma MembersAppend(rows: seq<Pub>, last: Pub, byMonth: bool, k: string)
    ensures Members(rows + [last], byMonth, k) ==
      if GroupKey(last, byMonth) == k then Members(rows, byMonth, k) + [Article(last)]
      else Members(rows, byMonth, k)
  {
    assert (rows + [last])[..|rows|] == rows;
  }

  lemma {:induction false} MembersEmpty(rows: seq<Pub>, byMonth: bool, key: string)
    requires key !in RowKeys(rows, byMonth)
    ensures Members(rows, byMonth, key) == []
    decreases |rows|
  {
    if |rows| > 0 {
      var init := rows[..|rows| - 1];
      assert rows == init + [rows[|rows| - 1]];
      RowKeysAppend(init, rows[|rows| - 1], byMonth);
      MembersEmpty(init, byMonth, key);
    }
  }

  /** A row whose key already has a group is appended to that group. */
  lemma StepExisting(before: seq<Group>, rows: seq<Pub>, last: Pub, byMonth: bool, i: nat)
    requires WellGrouped(before, rows, byMonth)
    requires Find(before, GroupKey(last, byMonth)) == Some(i)
    ensures WellGrouped(AddRow(before, GroupKey(last, byMonth), Article(last)), rows + [last], byMonth)
  {
    var key := GroupKey(last, byMonth);
    var g := Group(key, before[i].articles + [Article(last)]);
    var after := AddRow(before, key, Article(last));
    assert after == before[i := g];
    var keys := RowKeys(rows, byMonth);
    RowKeysAppend(rows, last, byMonth);
    ReplaceKeepsKeys(before, i, g);
    ExistingCovers(before, after, keys, key);
    ExistingOrdered(before, i, g, keys, key);
    ExistingHolds(before, i, rows, last, byMonth);
  }

  /** Replacing a group by one with the same key changes no lookup. */
  lemma ReplaceKeepsKeys(before: seq<Group>, i: nat, g: Group)
    requires i < |before| && g.key == before[i].key
    ensures forall k :: Find(before[i := g], k) == Find(before, k)
    ensures DistinctKeys(before) ==> DistinctKeys(before[i := g])
  {
    forall k ensures Find(before[i := g], k) == Find(before, k) {
      FindSameKeys(before[i := g], before, k);
    }
  }

  lemma ExistingCovers(before: seq<Group>, after: seq<Group>, keys: seq<string>, key: string)
    requires forall k :: Find(after, k) == Find(before, k)
    requires Covers(before, keys) && Find(before, key).Some?
    ensures Covers(after, keys + [key])
  {
  }

  lemma ExistingOrdered(before: seq<Group>, i: nat, g: Group, keys: seq<string>, key: string)
    requires i < |before| && g.key == before[i].key
    requires Ordered(before, keys) && key in keys
    ensures Ordered(before[i := g], keys + [key])
  {
    forall k | k in keys ensures FirstIndex(keys + [key], k) == FirstIndex(keys, k) {
      FirstIndexAppend(keys, key, k);
    }
    var after := before[i := g];
    assert forall j :: 0 <= j < |after| ==> after[j].key == before[j].key;
  }

  lemma ExistingHolds(before: seq<Group>, i: nat, rows: seq<Pub>, last: Pub, byMonth: bool)
    requires i < |before| && before[i].key == GroupKey(last, byMonth)
    requires DistinctKeys(before) && HoldsMembers(before, rows, byMonth)
    ensures HoldsMembers(before[i := Group(GroupKey(last, byMonth), before[i].articles + [Article(last)])],
                         rows + [last], byMonth)
  {
    var after := before[i := Group(GroupKey(last, byMonth), before[i].articles + [Article(last)])];
    forall j | 0 <= j < |after| ensures after[j].articles == Members(rows + [last], byMonth, after[j].key) {
      MembersAppend(rows, last, byMonth, after[j].key);
    }
  }

  /** A row with a new key opens a group at the end. */
  lemma StepNew(before: seq<Group>, rows: seq<Pub>, last: Pub, byMonth: bool)
    requires WellGrouped(before, rows, byMonth)
    requires Find(before, GroupKey(last, byMonth)).None?
    ensures WellGrouped(AddRow(before, GroupKey(last, byMonth), Article(last)), rows + [last], byMonth)
  {
    var key := GroupKey(last, byMonth);
    var g := Group(key, [Article(last)]);
    var keys := RowKeys(rows, byMonth);
    RowKeysAppend(rows, last, byMonth);
    NewCovers(before, g, keys);
    NewOrdered(before, g, keys);
    NewHolds(before, rows, last, byMonth);
  }

  lemma NewCovers(before: seq<Group>, g: Group, keys: seq<string>)
    requires Covers(before, keys) && Find(before, g.key).None?
    ensures Covers(before + [g], keys + [g.key])
    ensures DistinctKeys(before) ==> DistinctKeys(before + [g])
  {
    forall k ensures Find(before + [g], k) ==
      (if Find(before, k).Some? then Find(before, k) else if g.key == k then Some(|before|) else None)
    {
      FindAppend(before, g, k);
    }
  }

  lemma NewOrdered(before: seq<Group>, g: Group, keys: seq<string>)
    requires Covers(before, keys) && Find(before, g.key).None?
    requires Ordered(before, keys)
    ensures Ordered(before + [g], keys + [g.key])
  {
    assert g.key !in keys;
    forall k | k in keys ensures FirstIndex(keys + [g.key], k) == FirstIndex(keys, k) {
      FirstIndexAppend(keys, g.key, k);
    }
    FirstIndexNew(keys, g.key);
    forall j | 0 <= j < |before| ensures before[j].key in keys {
      assert Find(before, before[j].key).Some?;
    }
  }

  lemma NewHolds(before: seq<Group>, rows: seq<Pub>, last: Pub, byMonth: bool)
    requires Covers(before, RowKeys(rows, byMonth)) && Find(before, GroupKey(last, byMonth)).None?
    requires HoldsMembers(before, rows, byMonth)
    ensures HoldsMembers(before + [Group(GroupKey(last, byMonth), [Article(last)])], rows + [last], byMonth)
  {
    var key := GroupKey(last, byMonth);
    var after := before + [Group(key, [Article(last)])];
    MembersEmpty(rows, byMonth, key);
    forall j | 0 <= j < |after| ensures after[j].articles == Members(rows + [last], byMonth, after[j].key) {
      MembersAppend(rows, last, byMonth, after[j].key);
    }
  }

  /** The grouping loop establishes the grouping invariant. */
  lemma {:induction false} GroupRowsWellGrouped(rows: seq<Pub>, byMonth: bool)
    ensures WellGrouped(GroupRows(rows, byMonth), rows, byMonth)
    decreases |rows|
  {
    if |rows| > 0 {
      var init := rows[..|rows| - 1];
      var last := rows[|rows| - 1];
      assert rows == init + [last];
      GroupRowsWellGrouped(init, byMonth);
      var before := GroupRows(init, byMonth);
      assert GroupRows(rows, byMonth) == AddRow(before, GroupKey(last, byMonth), Article(last));
      match Find(before, GroupKey(last, byMonth))
      case Some(i) => StepExisting(before, init, last, byMonth, i);
      case None => StepNew(before, init, last, byMonth);
    }
  }

  /** Every row lands in exactly one group, and its article is in it. */
  lemma EveryRowInOneGroup(rows: seq<Pub>, byMonth: bool, n: nat)
    requires n < |rows|
    ensures var groups := GroupRows(rows, byMonth);
      var key := GroupKey(rows[n], byMonth);
      Find(groups, key).Some?
      && Article(rows[n]) in groups[Find(groups, key).value].articles
      && forall i :: 0 <= i < |groups| && groups[i].key == key ==> i == Find(groups, key).value
  {
    var groups := GroupRows(rows, byMonth);
    GroupRowsWellGrouped(rows, byMonth);
    var key := GroupKey(rows[n], byMonth);
    assert RowKeys(rows, byMonth)[n] == key;
    MembersContains(rows, byMonth, n);
  }

  lemma {:induction false} MembersContains(rows: seq<Pub>, byMonth: bool, n: nat)
    requires n < |rows|
    ensures Article(rows[n]) in Members(rows, byMonth, GroupKey(rows[n], byMonth))
    decreases |rows|
  {
    if n < |rows| - 1 {
      MembersContains(rows[..|rows| - 1], byMonth, n);
    }
  }

  /** A group holds exactly the articles of the rows with its key, in the
      order the query returned them. */
  lemma GroupContents(rows: seq<Pub>, byMonth: bool, i: nat)
    requires i < |GroupRows(rows, byMonth)|
    ensures var g := GroupRows(rows, byMonth)[i];
      g.articles == Members(rows, byMonth, g.key) && g.key in RowKeys(rows, byMonth)
  {
    GroupRowsWellGrouped(rows, byMonth);
  }

  /** Groups come in the order their keys first appear among the rows. */
  lemma GroupOrder(rows: seq<Pub>, byMonth: bool, i: nat, j: nat)
    requires i < j < |GroupRows(rows, byMonth)|
    ensures var groups := GroupRows(rows, byMonth);
      groups[i].key != groups[j].key
      && groups[i].key in RowKeys(rows, byMonth) && groups[j].key in RowKeys(rows, byMonth)
      && FirstIndex(RowKeys(rows, byMonth), groups[i].key) < FirstIndex(RowKeys(rows, byMonth), groups[j].key)
  {
    GroupRowsWellGrouped(rows, byMonth);
  }

  /** Every stored article has a `property` list, and no group key ends in
      "-00". */
  lemma GroupsAreClean(rows: seq<Pub>, byMonth: bool, i: nat, a: Pub)
    requires i < |GroupRows(rows, byMonth)|
    requires a in GroupRows(rows, byMonth)[i].articles
    ensures a.property.Some?
    ensures !EndsWith(GroupRows(rows, byMonth)[i].key, "-00")
  {
    var g := GroupRows(rows, byMonth)[i];
    GroupContents(rows, byMonth, i);
    MembersAreArticles(rows, byMonth, g.key);
    var keys := RowKeys(rows, byMonth);
    var n :| 0 <= n < |keys| && keys[n] == g.key;
    assert keys[n] == GroupKey(rows[n], byMonth);
  }

  lemma {:induction false} MembersAreArticles(rows: seq<Pub>, byMonth: bool, key: string)
    ensures forall a :: a in Members(rows, byMonth, key) ==> a.property.Some?
    decreases |rows|
  {
    if |rows| > 0 {
      MembersAreArticles(rows[..|rows| - 1], byMonth, key);
    }
  }

  /** The months "2019-00" and "2019-01" share a group. */
  lemma ZeroMonthJoinsJanuary(p: Pub, q: Pub)
    requires p.month == "2019-00" && q.month == "2019-01"
    ensures GroupKey(p, true) == GroupKey(q, true) == "2019-01"
  {
    assert EndsWith("2019-00", "-00");
    assert !EndsWith("2019-01", "-00");
  }
}

=== FILE: keck_table.dfy ===
/** The affiliation rule table shipped with the Keck legacy-data checker:
    Keck partner institutions first, then United States institutions. */
module KeckTable {
  import opened Text
  import opened Affiliation

  const KeckRule: Rule := Rule("keck", [
    "keck",
    "WMKO",
    "California Institute of Technology",
    "Caltech",
    "CIT",
    "University of California",
    "UCD",
    "UCI",
    "UCLA",
    "UCR",
    "UCSB",
    "UCSC",
    "UCSD",
    "USRA",
    "University of Hawaii",
    "University of Hawai'i",
    "University of Hawai`i",
    "University of Hawai\U{2018}i",
    "Manoa",
    "ANU",
    "Australian National University",
    "Northwestern",
    "Swinburne",
    "Yale",
    "JPL",
    "Jet Propulsion Laboratory"
  ])

  const UsaRule: Rule := Rule("usa", [
    "USA",
    "United States of America",
    "NASA",
    "National Aeronautics and Space Administration"
  ])

  const AffDefs: seq<Rule> := [KeckRule, UsaRule]

  /** The keck rule precedes the usa rule, so an affiliation naming both a
      partner institution and the country is classified as keck. */
  lemma CaltechUsaIsKeck()
    ensures RuleMatches(UsaRule, ["Caltech, Pasadena, CA, USA"])
    ensures Classify("Caltech, Pasadena, CA, USA", AffDefs) == "keck"
  {
    var s := "Caltech, Pasadena, CA, USA";
    UsaIn([s], 0, 23);
    SingleSegmentCaltech(s, 0);
  }

  lemma SingleSegmentCaltech(s: string, at: nat)
    requires ';' !in s
    requires at <= |s| && IsPrefix(Lower("Caltech"), Lower(s)[at..])
    ensures Classify(s, AffDefs) == "keck"
  {
    SplitWithoutSeparator(s, ';');
    CaltechIn([s], 0, at);
    KeckRuleWins(s);
  }

  /** Rule order beats segment order: the first segment names NASA (usa),
      the second Caltech (keck), and keck still wins. */
  lemma KeckInLaterSegmentWins()
    ensures Split("NASA Ames; Caltech", ';') == ["NASA Ames", " Caltech"]
    ensures RuleMatches(UsaRule, ["NASA Ames"])
    ensures Classify("NASA Ames; Caltech", AffDefs) == "keck"
  {
    assert "NASA Ames; Caltech" == "NASA Ames" + [';'] + " Caltech";
    NasaSegment();
    CaltechSegment();
    TwoSegmentCaltech("NASA Ames", " Caltech", 1);
  }

  /** "NASA Ames" is one segment, and the `usa` rule matches it. */
  lemma NasaSegment()
    ensures ';' !in "NASA Ames" && RuleMatches(UsaRule, ["NASA Ames"])
  {
    assert IsPrefix("NASA", "NASA Ames"[0..]);
    UsaIn(["NASA Ames"], 0, 0);
  }

  /** " Caltech" is one segment holding "caltech" from its second character. */
  lemma CaltechSegment()
    ensures ';' !in " Caltech" && IsPrefix(Lower("Caltech"), Lower(" Caltech")[1..])
  {
    assert Lower(" Caltech")[1..] == Lower("Caltech");
  }

  lemma TwoSegmentCaltech(a: string, b: string, at: nat)
    requires ';' !in a && ';' !in b
    requires at <= |b| && IsPrefix(Lower("Caltech"), Lower(b)[at..])
    ensures Split(a + [';'] + b, ';') == [a, b]
    ensures Classify(a + [';'] + b, AffDefs) == "keck"
  {
    var affstr := a + [';'] + b;
    SplitAtSeparator(a, b, ';');
    SplitWithoutSeparator(b, ';');
    var segments := Split(affstr, ';');
    assert segments == [a, b];
    CaltechIn(segments, 1, at);
    KeckRuleWins(affstr);
  }

  /** Whatever else an affiliation matches, a match of the keck rule makes
      it keck. */
  lemma KeckRuleWins(affstr: string)
    requires RuleMatches(KeckRule, Split(affstr, ';'))
    ensures Classify(affstr, AffDefs) == "keck"
  {
    ClassifyIsFirstMatch(affstr, AffDefs, 0);
  }

  lemma CaltechIn(segments: seq<string>, j: nat, at: nat)
    requires j < |segments| && at <= |segments[j]|
    requires IsPrefix(Lower("Caltech"), Lower(segments[j])[at..])
    ensures RuleMatches(KeckRule, segments)
  {
    assert !IsAllCaps("Caltech") by { assert IsLowerChar("Caltech"[1]); }
    SubstringAt(Lower("Caltech"), Lower(segments[j]), at);
    assert KeckRule.patterns[3] == "Caltech";
    assert PatternMatches(KeckRule.patterns[3], segments[j]);
  }

  lemma UsaIn(segments: seq<string>, j: nat, at: nat)
    requires j < |segments| && at <= |segments[j]|
    requires IsPrefix("USA", segments[j][at..]) || IsPrefix("NASA", segments[j][at..])
    ensures RuleMatches(UsaRule, segments)
  {
    assert IsAllCaps("USA") by { assert IsUpperChar("USA"[0]); }
    assert IsAllCaps("NASA") by { assert IsUpperChar("NASA"[0]); }
    if IsPrefix("USA", segments[j][at..]) {
      SubstringAt("USA", segments[j], at);
      assert PatternMatches(UsaRule.patterns[0], segments[j]);
    } else {
      SubstringAt("NASA", segments[j], at);
      assert PatternMatches(UsaRule.patterns[2], segments[j]);
    }
  }

  /** `keck` is not all caps, so it also finds the capitalised name. */
  lemma KeckMatchesObservatoryName()
    ensures PatternMatches("keck", "W. M. Keck Observatory")
  {
    assert !IsAllCaps("keck") by { assert IsLowerChar("keck"[0]); }
    SubstringAt(Lower("keck"), Lower("W. M. Keck Observatory"), 6);
  }

  /** `CIT` and `UCLA` are all caps, so they ignore lower-case text. */
  lemma AllCapsPatternsIgnoreLowerCase(segment: string)
    requires forall k :: 0 <= k < |segment| ==> !IsUpperChar(segment[k])
    ensures !PatternMatches("CIT", segment) && !PatternMatches("UCLA", segment)
  {
    assert IsUpperChar("CIT"[0]);
    assert IsUpperChar("UCLA"[0]);
    AllCapsNeedsUpperCase("CIT", segment);
    AllCapsNeedsUpperCase("UCLA", segment);
  }
}

=== FILE: legacy_check.dfy ===
/** The row check of the Keck legacy-spreadsheet comparison: for each
    spreadsheet row, the hand-entered affiliation codes of the first three
    authors are compared with the types the classifier assigns to the first
    three affiliations of the stored publication, and rows that disagree are
    reported. */
module LegacyCheck {
  import opened Text
  import opened Affiliation
  import opened Wrappers
  import KeckTable

  /** A spreadsheet row after blank cells were filled with "". */
  datatype SheetRow = SheetRow(bibcode: string, auAff1: string, auAff2: string, auAff3: string)

  /** Why a row stops the whole run. */
  datatype Failure =
    | UnknownCode(code: char)                       // a digit the code table lacks
    | MissingAffiliation(bibcode: string, slot: nat) // an affiliation index past the stored list

  datatype RowOutcome =
    | Skipped                                   // no bibcode, no first code, or not stored
    | Agrees                                    // all three slots agree
    | Mismatch(bibcode: string, slots: seq<nat>) // the slots that disagree, ascending
    | Crash(failure: Failure)

  /** The legacy code of a cell: the first character after stripping
      whitespace, when it is a digit. */
  function LegacyCode(cell: string): (code: Option<char>)
    ensures code.Some? ==>
              IsDigit(code.value)
              && exists i :: 0 <= i < |cell| && cell[i] == code.value && forall k :: 0 <= k < i ==> IsSpace(cell[k])
    ensures code.None? ==>
              forall i :: 0 <= i < |cell| && IsDigit(cell[i]) ==> exists k :: 0 <= k < i && !IsSpace(cell[k])
  {
    StripFirst(cell);
    var t := Strip(cell);
    if |t| > 0 && IsDigit(t[0]) then Some(t[0]) else None
  }

  /** A cell has a code exactly when its first non-blank character is a
      digit, and the code is that digit. */
  lemma LegacyCodeIsFirstNonBlank(cell: string, i: nat)
    requires i < |cell| && !IsSpace(cell[i])
    requires forall k :: 0 <= k < i ==> IsSpace(cell[k])
    ensures LegacyCode(cell).Some? <==> IsDigit(cell[i])
    ensures LegacyCode(cell).Some? ==> LegacyCode(cell).value == cell[i]
  {
    StripFirst(cell);
  }

  /** A blank cell has no code. */
  lemma BlankCellHasNoCode(cell: string)
    requires forall k :: 0 <= k < |cell| ==> IsSpace(cell[k])
    ensures LegacyCode(cell) == None
  {
    StripFirst(cell);
  }

  /** The first character of the stripped cell is the first non-space one. */
  lemma StripFirst(cell: string)
    ensures |Strip(cell)| > 0 <==> exists i :: 0 <= i < |cell| && !IsSpace(cell[i])
    ensures forall i :: 0 <= i < |cell| && !IsSpace(cell[i]) && (forall k :: 0 <= k < i ==> IsSpace(cell[k]))
              ==> |Strip(cell)| > 0 && Strip(cell)[0] == cell[i]
  {
    var l := StripLeft(cell);
    var t := StripRight(l);
    var i := |cell| - |l|;
    if |l| > 0 {
      assert l[0] == cell[i];
      assert t[0] == l[0];
    } else {
      assert forall j :: 0 <= j < |cell| ==> IsSpace(cell[j]);
    }
  }

  /** The code table: 1 is keck, 2 is usa, 3 is other, no code is "".
      `None` stands for the lookup error any other digit raises. */
  function LegacyType(c: Option<char>): (r: Option<string>)
    ensures r.Some? <==> c.None? || c.value in "123"
    ensures r == Some("") <==> c.None?
    ensures c == Some('1') ==> r == Some("keck")
    ensures c == Some('2') ==> r == Some("usa")
    ensures c == Some('3') ==> r == Some(Other)
    ensures r.Some? && r.value != "" ==>
      r.value == Other || exists i :: 0 <= i < |KeckTable.AffDefs| && r.value == KeckTable.AffDefs[i].kind
  {
    match c
    case None => Some("")
    case Some(d) =>
      if d == '1' then assert KeckTable.AffDefs[0].kind == "keck"; Some("keck")
      else if d == '2' then assert KeckTable.AffDefs[1].kind == "usa"; Some("usa")
      else if d == '3' then Some(Other)
      else None
  }

  /** Slot `i` of the computed list: the classifier's type for the `i`-th
      stored affiliation, or "" when the publication has fewer. */
  function FoundType(affs: seq<string>, rules: seq<Rule>, i: nat): string {
    if i < |affs| then Classify(affs[i], rules) else ""
  }

  /** The computed list of three types, built slot by slot. */
  method ComputedTypes(affs: seq<string>, rules: seq<Rule>) returns (types: seq<string>)
    ensures |types| == 3
    ensures forall i :: 0 <= i < 3 && i >= |affs| ==> types[i] == ""
    ensures forall i :: 0 <= i < 3 && i < |affs| ==> types[i] == Classify(affs[i], rules)
  {
    types := [];
    for i := 0 to 3
      invariant |types| == i
      invariant forall k :: 0 <= k < i ==> types[k] == FoundType(affs, rules, k)
    {
      var aff := "";
      if |affs| > i {
        aff := GetAffType(affs[i], rules);
      }
      types := types + [aff];
    }
  }

  /** The slots, from `from` on, where the two lists disagree. */
  function Differing(found: seq<string>, expected: seq<string>, from: nat): (r: seq<nat>)
    requires |found| == |expected| && from <= |found|
    ensures forall p :: p in r <==> from <= p < |found| && found[p] != expected[p]
    ensures forall a, b :: 0 <= a < b < |r| ==> r[a] < r[b]
    ensures forall a :: 0 <= a < |r| ==> from <= r[a]
    decreases |found| - from
  {
    if from == |found| then []
    else if found[from] != expected[from] then [from] + Differing(found, expected, from + 1)
    else Differing(found, expected, from + 1)
  }

  /** The first slot of `slots` past the stored affiliation list, if any. */
  function FirstMissing(slots: seq<nat>, count: nat): (r: Option<nat>)
    ensures r.Some? ==> r.value in slots && r.value >= count
    ensures r.None? <==> forall p :: p in slots ==> p < count
    ensures r.Some? && (forall a, b :: 0 <= a < b < |slots| ==> slots[a] < slots[b]) ==>
              forall p :: p in slots && p >= count ==> r.value <= p
  {
    if |slots| == 0 then None
    else if slots[0] >= count then Some(slots[0])
    else
      assert forall p :: p in slots ==> p == slots[0] || p in slots[1..];
      FirstMissing(slots[1..], count)
  }

  /** The three mapped legacy types, or the first code the table lacks. */
  function ExpectedTypes(row: SheetRow): (r: Result3)
    ensures r.Types? <==> LegacyType(LegacyCode(row.auAff1)).Some?
                          && LegacyType(LegacyCode(row.auAff2)).Some?
                          && LegacyType(LegacyCode(row.auAff3)).Some?
    ensures r.Types? ==> r.types == [LegacyType(LegacyCode(row.auAff1)).value,
                                     LegacyType(LegacyCode(row.auAff2)).value,
                                     LegacyType(LegacyCode(row.auAff3)).value]
    ensures r.BadCode? ==>
              var c1, c2, c3 := LegacyCode(row.auAff1), LegacyCode(row.auAff2), LegacyCode(row.auAff3);
              || (LegacyType(c1).None? && c1 == Some(r.code))
              || (LegacyType(c1).Some? && LegacyType(c2).None? && c2 == Some(r.code))
              || (LegacyType(c1).Some? && LegacyType(c2).Some? && LegacyType(c3).None? && c3 == Some(r.code))
  {
    var c1, c2, c3 := LegacyCode(row.auAff1), LegacyCode(row.auAff2), LegacyCode(row.auAff3);
    match (LegacyType(c1), LegacyType(c2), LegacyType(c3))
    case (Some(t1), Some(t2), Some(t3)) => Types([t1, t2, t3])
    case (None, _, _) => BadCode(c1.value)
    case (_, None, _) => BadCode(c2.value)
    case (_, _, None) => BadCode(c3.value)
  }

  datatype Result3 = Types(types: seq<string>) | BadCode(code: char)

  /** The three slots computed from the stored affiliations. */
  function Found(affs: seq<string>, rules: seq<Rule>): (r: seq<string>) {
    seq(3, i requires 0 <= i < 3 => FoundType(affs, rules, i))
  }

  /** Whether a row is looked at at all: it has a bibcode, a first code and
      a stored publication. */
  predicate Checked(row: SheetRow, db: map<string, seq<string>>) {
    row.bibcode != "" && LegacyCode(row.auAff1).Some? && row.bibcode in db
  }

  /** Slot `p` of a checked row's computed list disagrees with the type its
      legacy code maps to. */
  predicate SlotDiffers(row: SheetRow, db: map<string, seq<string>>, rules: seq<Rule>, p: nat) {
    && row.bibcode in db && ExpectedTypes(row).Types? && p < 3
    && FoundType(db[row.bibcode], rules, p) != ExpectedTypes(row).types[p]
  }

  /** A checked row whose legacy code the table lacks: the lookup stops the
      script with a key error. */
  predicate UnknownCodeStop(row: SheetRow, db: map<string, seq<string>>) {
    Checked(row, db) && ExpectedTypes(row).BadCode?
  }

  /** A checked row with a disagreeing slot past its stored list: printing
      that slot's stored affiliation stops the script with an index error. */
  predicate PastListStop(row: SheetRow, db: map<string, seq<string>>, rules: seq<Rule>) {
    Checked(row, db) && exists p :: 0 <= p < 3 && SlotDiffers(row, db, rules, p) && |db[row.bibcode]| <= p
  }

  /** The check of one row as the script is written: the report for a
      disagreeing slot prints the stored affiliation of that slot, which
      fails when the slot is past the stored list. */
  function CheckRowAsWritten(row: SheetRow, db: map<string, seq<string>>, rules: seq<Rule>): (out: RowOutcome)
    ensures out == Skipped <==> !Checked(row, db)
    ensures out.Crash? && out.failure.UnknownCode? ==> ExpectedTypes(row) == BadCode(out.failure.code)
    ensures out.Crash? && out.failure.MissingAffiliation? ==>
              && Checked(row, db) && out.failure.bibcode == row.bibcode && ExpectedTypes(row).Types?
              && |db[row.bibcode]| <= out.failure.slot && SlotDiffers(row, db, rules, out.failure.slot)
    ensures out.Mismatch? ==>
              && out.bibcode == row.bibcode && |out.slots| > 0 && ExpectedTypes(row).Types?
              && forall p :: p in out.slots ==> p < |db[row.bibcode]| && SlotDiffers(row, db, rules, p)
    ensures UnknownCodeStop(row, db) ==> out == Crash(UnknownCode(ExpectedTypes(row).code))
    ensures Checked(row, db) ==>
              forall p :: SlotDiffers(row, db, rules, p) && |db[row.bibcode]| <= p ==>
                out.Crash? && out.failure.MissingAffiliation? && out.failure.slot <= p
    ensures Checked(row, db) && ExpectedTypes(row).Types? && !PastListStop(row, db, rules) ==>
              forall p :: SlotDiffers(row, db, rules, p) ==> out.Mismatch? && p in out.slots
    ensures out.Crash? <==> UnknownCodeStop(row, db) || PastListStop(row, db, rules)
  {
    if !Checked(row, db) then Skipped
    else if ExpectedTypes(row).BadCode? then
      assert !PastListStop(row, db, rules);
      Crash(UnknownCode(ExpectedTypes(row).code))
    else
      var out := CheckRow(row, db, rules);
      PastListIsFirstMissing(row, db, rules);
      if !out.Mismatch? then out
      else
        var missing := FirstMissing(out.slots, |db[row.bibcode]|);
        if missing.None? then
          assert !PastListStop(row, db, rules);
          out
        else
          assert missing.value in out.slots && PastListStop(row, db, rules);
          Crash(MissingAffiliation(row.bibcode, missing.value))
  }

  /** For a checked row with known codes, a disagreeing slot lies past the
      stored list exactly when the first such slot of the report exists, and
      that slot is the least one. */
  lemma PastListIsFirstMissing(row: SheetRow, db: map<string, seq<string>>, rules: seq<Rule>)
    requires Checked(row, db) && ExpectedTypes(row).Types?
    ensures CheckRow(row, db, rules).Mismatch? || CheckRow(row, db, rules).Agrees?
    ensures var out := CheckRow(row, db, rules);
      var missing := if out.Mismatch? then FirstMissing(out.slots, |db[row.bibcode]|) else None;
      && (PastListStop(row, db, rules) <==> missing.Some?)
      && (missing.Some? ==>
            forall p :: SlotDiffers(row, db, rules, p) && |db[row.bibcode]| <= p ==> missing.value <= p)
  {
    var out := CheckRow(row, db, rules);
    var affs := db[row.bibcode];
    if out.Mismatch? {
      var slots := Differing(Found(affs, rules), ExpectedTypes(row).types, 0);
      assert out.slots == slots;
      var missing := FirstMissing(slots, |affs|);
      if missing.Some? {
        assert SlotDiffers(row, db, rules, missing.value);
      }
    }
  }

  /** The check of one row as evidently intended: every disagreeing row is
      reported, whatever the length of its stored affiliation list. */
  function CheckRow(row: SheetRow, db: map<string, seq<string>>, rules: seq<Rule>): (out: RowOutcome)
    ensures out == Skipped <==> !Checked(row, db)
    ensures out.Crash? ==> out.failure.UnknownCode? && ExpectedTypes(row) == BadCode(out.failure.code)
    ensures out.Mismatch? ==>
              && out.bibcode == row.bibcode && |out.slots| > 0 && ExpectedTypes(row).Types?
              && forall p :: p in out.slots ==> SlotDiffers(row, db, rules, p)
    ensures UnknownCodeStop(row, db) ==> out == Crash(UnknownCode(ExpectedTypes(row).code))
    ensures Checked(row, db) && ExpectedTypes(row).Types? ==>
              forall p :: SlotDiffers(row, db, rules, p) ==> out.Mismatch? && p in out.slots
    ensures out.Crash? <==> UnknownCodeStop(row, db)
  {
    if !Checked(row, db) then Skipped
    else
      var affs := db[row.bibcode];
      match ExpectedTypes(row)
      case BadCode(c) => Crash(UnknownCode(c))
      case Types(expected) =>
        var slots := Differing(Found(affs, rules), expected, 0);
        DifferingSlots(row, db, rules);
        if slots == [] then Agrees else Mismatch(row.bibcode, slots)
  }

  /** The slots the comparison lists are exactly the disagreeing ones. */
  lemma DifferingSlots(row: SheetRow, db: map<string, seq<string>>, rules: seq<Rule>)
    requires Checked(row, db) && ExpectedTypes(row).Types?
    ensures forall p: nat :: SlotDiffers(row, db, rules, p) <==>
              p in Differing(Found(db[row.bibcode], rules), ExpectedTypes(row).types, 0)
  {
    var found := Found(db[row.bibcode], rules);
    assert forall p :: 0 <= p < 3 ==> found[p] == FoundType(db[row.bibcode], rules, p);
  }

  /** A checked row with known codes is reported exactly when one of its
      three slots disagrees with the legacy code. */
  lemma ReportedIffSomeSlotDiffers(row: SheetRow, db: map<string, seq<string>>, rules: seq<Rule>)
    requires Checked(row, db) && ExpectedTypes(row).Types?
    ensures CheckRow(row, db, rules).Mismatch? <==>
      exists p :: 0 <= p < 3 && FoundType(db[row.bibcode], rules, p) != ExpectedTypes(row).types[p]
    ensures CheckRow(row, db, rules).Agrees? <==>
      forall p :: 0 <= p < 3 ==> FoundType(db[row.bibcode], rules, p) == ExpectedTypes(row).types[p]
  {
    var affs := db[row.bibcode];
    var found := Found(affs, rules);
    var slots := Differing(found, ExpectedTypes(row).types, 0);
    if |slots| > 0 {
      assert slots[0] in slots;
    } else {
      forall p | 0 <= p < 3
        ensures FoundType(affs, rules, p) == ExpectedTypes(row).types[p]
      {
        assert found[p] == FoundType(affs, rules, p);
      }
    }
  }

  /** The two versions agree whenever the stored list covers every
      disagreeing slot, in particular when it has three or more entries. */
  lemma AsWrittenAgreesWithEnoughAffiliations(row: SheetRow, db: map<string, seq<string>>, rules: seq<Rule>)
    requires row.bibcode in db && |db[row.bibcode]| >= 3
    ensures CheckRowAsWritten(row, db, rules) == CheckRow(row, db, rules)
  {
  }

  /** The two versions part only where the script stops on a slot past the
      stored list and the intended check reports the row. */
  lemma AsWrittenDiffersOnlyByMissingSlot(row: SheetRow, db: map<string, seq<string>>, rules: seq<Rule>)
    ensures CheckRowAsWritten(row, db, rules) != CheckRow(row, db, rules) <==>
              && CheckRowAsWritten(row, db, rules).Crash?
              && CheckRowAsWritten(row, db, rules).failure.MissingAffiliation?
    ensures CheckRowAsWritten(row, db, rules) != CheckRow(row, db, rules) ==>
              CheckRow(row, db, rules).Mismatch?
  {
  }

  /** A publication with one stored affiliation whose row carries a second
      code: the script stops with an index error instead of reporting. */
  lemma MissingAffiliationCrashes()
    ensures CheckRowAsWritten(SheetRow("2020X", "1", "2", ""), map["2020X" := ["Caltech"]], KeckTable.AffDefs)
            == Crash(MissingAffiliation("2020X", 1))
    ensures CheckRow(SheetRow("2020X", "1", "2", ""), map["2020X" := ["Caltech"]], KeckTable.AffDefs)
            == Mismatch("2020X", [1])
  {
    CaltechRowExample(SheetRow("2020X", "1", "2", ""), "Caltech");
  }

  lemma CaltechRowExample(row: SheetRow, aff: string)
    requires row.bibcode == "2020X" && row.auAff1 == "1" && row.auAff2 == "2" && row.auAff3 == ""
    requires aff == "Caltech"
    ensures CheckRowAsWritten(row, map[row.bibcode := [aff]], KeckTable.AffDefs)
            == Crash(MissingAffiliation(row.bibcode, 1))
    ensures CheckRow(row, map[row.bibcode := [aff]], KeckTable.AffDefs) == Mismatch(row.bibcode, [1])
  {
    RowCodes(row);
    CaltechIsKeck(aff);
    ShortListCrashes(row, row.bibcode, aff, KeckTable.AffDefs);
  }

  lemma RowCodes(row: SheetRow)
    requires row.auAff1 == "1" && row.auAff2 == "2" && row.auAff3 == ""
    ensures LegacyCode(row.auAff1) == Some('1') && LegacyCode(row.auAff2) == Some('2')
    ensures LegacyCode(row.auAff3) == None
  {
    CodeOfDigitCell(row.auAff1);
    CodeOfDigitCell(row.auAff2);
    BlankCellHasNoCode(row.auAff3);
  }

  lemma CaltechIsKeck(aff: string)
    requires aff == "Caltech"
    ensures Classify(aff, KeckTable.AffDefs) == "keck"
  {
    KeckTable.SingleSegmentCaltech(aff, 0);
  }

  /** The shape behind the example above, for any row and table. */
  lemma ShortListCrashes(row: SheetRow, bibcode: string, aff: string, rules: seq<Rule>)
    requires row.bibcode == bibcode != ""
    requires LegacyCode(row.auAff1) == Some('1') && LegacyCode(row.auAff2) == Some('2')
    requires LegacyCode(row.auAff3) == None
    requires Classify(aff, rules) == "keck"
    ensures CheckRowAsWritten(row, map[bibcode := [aff]], rules) == Crash(MissingAffiliation(bibcode, 1))
    ensures CheckRow(row, map[bibcode := [aff]], rules) == Mismatch(bibcode, [1])
  {
    var found := Found([aff], rules);
    KeckUsaBlankTypes(row);
    FoundOfKeckAffiliation(aff, rules);
    SecondSlotDiffers(found, ["keck", "usa", ""]);
    assert CheckRow(row, map[bibcode := [aff]], rules) == Mismatch(bibcode, [1]);
    SecondSlotPastList(row, map[bibcode := [aff]], rules);
  }

  /** Codes `1`, `2` and none expect keck, usa and nothing. */
  lemma KeckUsaBlankTypes(row: SheetRow)
    requires LegacyCode(row.auAff1) == Some('1') && LegacyCode(row.auAff2) == Some('2')
    requires LegacyCode(row.auAff3) == None
    ensures ExpectedTypes(row) == Types(["keck", "usa", ""])
  {
  }

  /** A report of slot 1 alone for a record with one stored affiliation
      stops the script at that slot. */
  lemma SecondSlotPastList(row: SheetRow, db: map<string, seq<string>>, rules: seq<Rule>)
    requires row.bibcode in db && |db[row.bibcode]| == 1
    requires CheckRow(row, db, rules) == Mismatch(row.bibcode, [1])
    ensures CheckRowAsWritten(row, db, rules) == Crash(MissingAffiliation(row.bibcode, 1))
  {
    assert FirstMissing([1], 1) == Some(1);
  }

  /** A single stored affiliation of type keck fills only the first slot. */
  lemma FoundOfKeckAffiliation(aff: string, rules: seq<Rule>)
    requires Classify(aff, rules) == "keck"
    ensures Found([aff], rules) == ["keck", "", ""]
  {
    var found := Found([aff], rules);
    assert found[0] == "keck" && found[1] == "" && found[2] == "";
  }

  /** Lists that agree on the first and third slot differ only at the second. */
  lemma SecondSlotDiffers(found: seq<string>, expected: seq<string>)
    requires |found| == |expected| == 3
    requires found[0] == expected[0] && found[1] != expected[1] && found[2] == expected[2]
    ensures Differing(found, expected, 0) == [1]
  {
    assert Differing(found, expected, 2) == [];
  }

  lemma CodeOfDigitCell(cell: string)
    requires |cell| == 1 && IsDigit(cell[0])
    ensures LegacyCode(cell) == Some(cell[0])
  {
    StripFirst(cell);
  }

  /** What a run over the whole spreadsheet prints: the disagreeing rows in
      spreadsheet order, up to the first row that stops the run. */
  datatype SheetReport = SheetReport(reports: seq<RowOutcome>, failure: Option<Failure>)

  function CheckSheet(rows: seq<SheetRow>, db: map<string, seq<string>>, rules: seq<Rule>): (r: SheetReport)
    ensures |r.reports| <= |rows|
    ensures forall k :: 0 <= k < |r.reports| ==> r.reports[k].Mismatch?
    ensures r.failure.None? <==> forall i :: 0 <= i < |rows| ==> !CheckRow(rows[i], db, rules).Crash?
    ensures r.failure.None? <==> forall i :: 0 <= i < |rows| ==> !UnknownCodeStop(rows[i], db)
    ensures var outs := Outcomes(rows, db, rules);
              && r.reports == Mismatches(outs[..FirstCrash(outs)])
              && (FirstCrash(outs) < |rows| ==> r.failure == Some(outs[FirstCrash(outs)].failure))
  {
    var outs := Outcomes(rows, db, rules);
    assert forall i :: 0 <= i < |rows| ==> outs[i] == CheckRow(rows[i], db, rules);
    SummariseBeforeCrash(outs);
    Summarise(outs)
  }

  /** The outcome of every row, in spreadsheet order. */
  function Outcomes(rows: seq<SheetRow>, db: map<string, seq<string>>, rules: seq<Rule>): (outs: seq<RowOutcome>)
    ensures |outs| == |rows|
    ensures forall i :: 0 <= i < |rows| ==> outs[i] == CheckRow(rows[i], db, rules)
  {
    seq(|rows|, i requires 0 <= i < |rows| => CheckRow(rows[i], db, rules))
  }

  /** The report over a list of row outcomes: mismatches are collected in
      order until the first crash, which ends the run. */
  function Summarise(outs: seq<RowOutcome>): (r: SheetReport)
    ensures |r.reports| <= |outs|
    ensures forall k :: 0 <= k < |r.reports| ==> r.reports[k].Mismatch?
    ensures r.failure.None? <==> forall i :: 0 <= i < |outs| ==> !outs[i].Crash?
    decreases |outs|
  {
    if |outs| == 0 then SheetReport([], None)
    else
      var rest := Summarise(outs[1..]);
      assert forall i :: 1 <= i < |outs| ==> outs[i] == outs[1..][i - 1];
      match outs[0]
      case Crash(f) => SheetReport([], Some(f))
      case Mismatch(b, slots) => SheetReport([Mismatch(b, slots)] + rest.reports, rest.failure)
      case _ => rest
  }

  /** Every report is one of the outcomes; when nothing stops the run, every
      mismatching outcome is reported, and the run stops at the first crash. */
  lemma {:induction false} SummariseReports(outs: seq<RowOutcome>)
    ensures forall k :: 0 <= k < |Summarise(outs).reports| ==> Summarise(outs).reports[k] in outs
    ensures Summarise(outs).failure.None? ==>
              forall i :: 0 <= i < |outs| && outs[i].Mismatch? ==> outs[i] in Summarise(outs).reports
    ensures Summarise(outs).failure.Some? ==>
              exists i :: 0 <= i < |outs| && outs[i] == Crash(Summarise(outs).failure.value)
                          && forall j :: 0 <= j < i ==> !outs[j].Crash?
    decreases |outs|
  {
    if |outs| > 0 {
      SummariseReports(outs[1..]);
      assert forall i :: 1 <= i < |outs| ==> outs[i] == outs[1..][i - 1];
      var r := Summarise(outs);
      if r.failure.Some? && !outs[0].Crash? {
        var i :| 0 <= i < |outs[1..]| && outs[1..][i] == Crash(r.failure.value)
                 && forall j :: 0 <= j < i ==> !outs[1..][j].Crash?;
        assert outs[i + 1] == Crash(r.failure.value);
      }
    }
  }

  /** The mismatching outcomes of a list, in their order. */
  function Mismatches(outs: seq<RowOutcome>): (ms: seq<RowOutcome>)
    ensures |ms| <= |outs|
    ensures forall k :: 0 <= k < |ms| ==> ms[k].Mismatch? && ms[k] in outs
    ensures forall i :: 0 <= i < |outs| && outs[i].Mismatch? ==> outs[i] in ms
    decreases |outs|
  {
    if |outs| == 0 then []
    else
      assert forall i :: 1 <= i < |outs| ==> outs[i] == outs[1..][i - 1];
      (if outs[0].Mismatch? then [outs[0]] else []) + Mismatches(outs[1..])
  }

  /** The position of the first crash, or the length when nothing crashes. */
  function FirstCrash(outs: seq<RowOutcome>): (i: nat)
    ensures i <= |outs|
    ensures i < |outs| ==> outs[i].Crash?
    ensures forall j :: 0 <= j < i ==> !outs[j].Crash?
    decreases |outs|
  {
    if |outs| == 0 || outs[0].Crash? then 0
    else
      assert forall j :: 1 <= j < |outs| ==> outs[j] == outs[1..][j - 1];
      1 + FirstCrash(outs[1..])
  }

  /** The report is exactly the mismatches before the first crash, in
      order, and the failure is that crash's, if any. */
  lemma {:induction false} SummariseBeforeCrash(outs: seq<RowOutcome>)
    ensures Summarise(outs).reports == Mismatches(outs[..FirstCrash(outs)])
    ensures Summarise(outs).failure ==
              if FirstCrash(outs) < |outs| then Some(outs[FirstCrash(outs)].failure) else None
    decreases |outs|
  {
    if |outs| > 0 && !outs[0].Crash? {
      var tail := outs[1..];
      SummariseBeforeCrash(tail);
      var i := FirstCrash(tail);
      assert FirstCrash(outs) == i + 1;
      assert outs[..i + 1][1..] == tail[..i];
      assert outs[..i + 1][0] == outs[0];
      if i < |tail| {
        assert outs[i + 1] == tail[i];
      }
    }
  }

  /** Every report is the outcome of some spreadsheet row. */
  lemma CheckSheetReportsRows(rows: seq<SheetRow>, db: map<string, seq<string>>, rules: seq<Rule>)
    ensures var r := CheckSheet(rows, db, rules);
      forall k :: 0 <= k < |r.reports| ==> exists i :: 0 <= i < |rows| && r.reports[k] == CheckRow(rows[i], db, rules)
  {
    var outs := Outcomes(rows, db, rules);
    SummariseReports(outs);
    var r := CheckSheet(rows, db, rules);
    forall k | 0 <= k < |r.reports|
      ensures exists i :: 0 <= i < |rows| && r.reports[k] == CheckRow(rows[i], db, rules)
    {
      OutcomeOfSomeRow(rows, db, rules, r.reports[k]);
    }
  }

  lemma OutcomeOfSomeRow(rows: seq<SheetRow>, db: map<string, seq<string>>, rules: seq<Rule>, out: RowOutcome)
    requires out in Outcomes(rows, db, rules)
    ensures exists i :: 0 <= i < |rows| && out == CheckRow(rows[i], db, rules)
  {
    var outs := Outcomes(rows, db, rules);
    var i :| 0 <= i < |outs| && outs[i] == out;
    assert out == CheckRow(rows[i], db, rules);
  }

  /** When no row stops the run, every disagreeing row is reported. */
  lemma CheckSheetReportsEveryMismatch(rows: seq<SheetRow>, db: map<string, seq<string>>, rules: seq<Rule>)
    requires CheckSheet(rows, db, rules).failure.None?
    ensures forall i :: 0 <= i < |rows| && CheckRow(rows[i], db, rules).Mismatch? ==>
              CheckRow(rows[i], db, rules) in CheckSheet(rows, db, rules).reports
  {
    SummariseReports(Outcomes(rows, db, rules));
  }

  /** The run over the whole spreadsheet as the script is written: a row
      whose disagreeing slot lies past its stored list stops the run. */
  function CheckSheetAsWritten(rows: seq<SheetRow>, db: map<string, seq<string>>, rules: seq<Rule>): (r: SheetReport)
    ensures |r.reports| <= |rows|
    ensures forall k :: 0 <= k < |r.reports| ==> r.reports[k].Mismatch?
    ensures r.failure.None? <==> forall i :: 0 <= i < |rows| ==> !CheckRowAsWritten(rows[i], db, rules).Crash?
    ensures r.failure.None? <==>
              forall i :: 0 <= i < |rows| ==> !UnknownCodeStop(rows[i], db) && !PastListStop(rows[i], db, rules)
    ensures var outs := OutcomesAsWritten(rows, db, rules);
              && r.reports == Mismatches(outs[..FirstCrash(outs)])
              && (FirstCrash(outs) < |rows| ==> r.failure == Some(outs[FirstCrash(outs)].failure))
  {
    var outs := OutcomesAsWritten(rows, db, rules);
    assert forall i :: 0 <= i < |rows| ==> outs[i] == CheckRowAsWritten(rows[i], db, rules);
    SummariseBeforeCrash(outs);
    Summarise(outs)
  }

  /** The as-written outcome of every row, in spreadsheet order. */
  function OutcomesAsWritten(rows: seq<SheetRow>, db: map<string, seq<string>>, rules: seq<Rule>): (outs: seq<RowOutcome>)
    ensures |outs| == |rows|
    ensures forall i :: 0 <= i < |rows| ==> outs[i] == CheckRowAsWritten(rows[i], db, rules)
  {
    seq(|rows|, i requires 0 <= i < |rows| => CheckRowAsWritten(rows[i], db, rules))
  }

  /** When every listed publication stores three or more affiliations, the
      script's run and the intended run print the same. */
  lemma SheetAsWrittenAgreesWithEnoughAffiliations(rows: seq<SheetRow>, db: map<string, seq<string>>, rules: seq<Rule>)
    requires forall i :: 0 <= i < |rows| && rows[i].bibcode in db ==> |db[rows[i].bibcode]| >= 3
    ensures CheckSheetAsWritten(rows, db, rules) == CheckSheet(rows, db, rules)
  {
    var written, intended := OutcomesAsWritten(rows, db, rules), Outcomes(rows, db, rules);
    forall i | 0 <= i < |rows|
      ensures written[i] == intended[i]
    {
      if rows[i].bibcode in db {
        AsWrittenAgreesWithEnoughAffiliations(rows[i], db, rules);
      }
    }
    assert written == intended;
  }

  /** When the script's run is not stopped, it reports every row the
      intended check finds disagreeing. */
  lemma CheckSheetAsWrittenReportsEveryMismatch(rows: seq<SheetRow>, db: map<string, seq<string>>, rules: seq<Rule>)
    requires CheckSheetAsWritten(rows, db, rules).failure.None?
    ensures forall i :: 0 <= i < |rows| && CheckRow(rows[i], db, rules).Mismatch? ==>
              CheckRow(rows[i], db, rules) in CheckSheetAsWritten(rows, db, rules).reports
  {
    var outs := OutcomesAsWritten(rows, db, rules);
    SummariseReports(outs);
    forall i | 0 <= i < |rows| && CheckRow(rows[i], db, rules).Mismatch?
      ensures CheckRow(rows[i], db, rules) == outs[i]
    {
      AsWrittenDiffersOnlyByMissingSlot(rows[i], db, rules);
    }
  }

  /** The one-row spreadsheet of the example above: the script's run stops
      without printing, the intended run reports the row. */
  lemma SheetStopsOnShortList()
    ensures CheckSheetAsWritten([SheetRow("2020X", "1", "2", "")], map["2020X" := ["Caltech"]], KeckTable.AffDefs)
            == SheetReport([], Some(MissingAffiliation("2020X", 1)))
    ensures CheckSheet([SheetRow("2020X", "1", "2", "")], map["2020X" := ["Caltech"]], KeckTable.AffDefs)
            == SheetReport([Mismatch("2020X", [1])], None)
  {
    MissingAffiliationCrashes();
    OneRowSheets(SheetRow("2020X", "1", "2", ""), map["2020X" := ["Caltech"]], KeckTable.AffDefs);
  }

  lemma OneRowSheets(row: SheetRow, db: map<string, seq<string>>, rules: seq<Rule>)
    ensures CheckSheetAsWritten([row], db, rules) == Summarise([CheckRowAsWritten(row, db, rules)])
    ensures CheckSheet([row], db, rules) == Summarise([CheckRow(row, db, rules)])
  {
    assert OutcomesAsWritten([row], db, rules) == [CheckRowAsWritten(row, db, rules)];
    assert Outcomes([row], db, rules) == [CheckRow(row, db, rules)];
  }
}

=== FILE: legacy_import.dfy ===
/** The two scripts that turn the Keck legacy spreadsheet into import
    records: rows without a bibcode are dropped, every record is tagged with
    mission keck and an empty science, and each record is inserted at the
    front of the output list, so the output runs in reverse sheet order.
    The export script also carries the instrument cell and an archive flag
    saying whether the TAC cell mentions KOA in any letter case. */
module LegacyImport {
  import opened Text

  /** The spreadsheet cells the scripts read, blank cells filled with "". */
  datatype LegacyRow = LegacyRow(bibcode: string, tac: string, instru: string)

  /** A bibcode/mission/science record of the check script. */
  datatype ImportRecord = ImportRecord(bibcode: string, mission: string, science: string)

  /** A record of the export script. */
  datatype ExportRecord = ExportRecord(
    bibcode: string, mission: string, science: string, instruments: string, archive: nat)

  const KeckMission: string := "keck"

  /** The rows that carry a bibcode, in sheet order. */
  function Kept(rows: seq<LegacyRow>): (kept: seq<LegacyRow>)
    ensures |kept| <= |rows|
    ensures forall k :: 0 <= k < |kept| ==> kept[k].bibcode != ""
    decreases |rows|
  {
    if |rows| == 0 then []
    else
      var last := rows[|rows| - 1];
      var init := Kept(rows[..|rows| - 1]);
      if last.bibcode == "" then init else init + [last]
  }

  /** Exactly the rows with a bibcode are kept. */
  lemma {:induction false} KeptMembers(rows: seq<LegacyRow>)
    ensures forall r :: r in rows ==> (r in Kept(rows) <==> r.bibcode != "")
    ensures forall r :: r in Kept(rows) ==> r in rows
    decreases |rows|
  {
    if |rows| > 0 {
      var init := rows[..|rows| - 1];
      KeptMembers(init);
      assert rows == init + [rows[|rows| - 1]];
    }
  }

  /** Positions of the rows that carry a bibcode. */
  function WithBibcode(rows: seq<LegacyRow>): set<nat> {
    set i: nat | i < |rows| && rows[i].bibcode != ""
  }

  /** As many rows are kept as carry a bibcode. */
  lemma {:induction false} KeptCount(rows: seq<LegacyRow>)
    ensures |Kept(rows)| == |WithBibcode(rows)|
    decreases |rows|
  {
    if |rows| > 0 {
      var n := |rows| - 1;
      KeptCount(rows[..n]);
      if rows[n].bibcode != "" {
        assert WithBibcode(rows) == WithBibcode(rows[..n]) + {n};
      } else {
        assert WithBibcode(rows) == WithBibcode(rows[..n]);
      }
    }
  }

  /** The KOA flag: 1 when the upper-cased TAC cell contains "KOA". */
  function Archived(tac: string): nat {
    if IsSubstring("KOA", Upper(tac)) then 1 else 0
  }

  function ToExport(row: LegacyRow): ExportRecord {
    ExportRecord(row.bibcode, KeckMission, "", row.instru, Archived(row.tac))
  }

  function ToImport(row: LegacyRow): ImportRecord {
    ImportRecord(row.bibcode, KeckMission, "")
  }

  /** The export script's loop. */
  method ExportLegacy(rows: seq<LegacyRow>) returns (out: seq<ExportRecord>)
    ensures |out| == |Kept(rows)|
    ensures forall i :: 0 <= i < |out| ==> out[i].bibcode == Kept(rows)[|out| - 1 - i].bibcode
    ensures forall i :: 0 <= i < |out| ==>
              out[i].instruments == Kept(rows)[|out| - 1 - i].instru
              && out[i].archive == Archived(Kept(rows)[|out| - 1 - i].tac)
    ensures forall i :: 0 <= i < |out| ==> out[i].mission == KeckMission && out[i].science == ""
    ensures forall i :: 0 <= i < |out| ==> out[i].bibcode != "" && out[i].archive <= 1
  {
    out := [];
    for i := 0 to |rows|
      invariant |out| == |Kept(rows[..i])|
      invariant forall j :: 0 <= j < |out| ==> out[j] == ToExport(Kept(rows[..i])[|out| - 1 - j])
    {
      assert rows[..i + 1][..i] == rows[..i];
      ghost var before := Kept(rows[..i]);
      if rows[i].bibcode != "" {
        assert Kept(rows[..i + 1]) == before + [rows[i]];
        out := [ToExport(rows[i])] + out;
      } else {
        assert Kept(rows[..i + 1]) == before;
      }
    }
    assert rows[..|rows|] == rows;
    forall i | 0 <= i < |out|
      ensures out[i].bibcode == Kept(rows)[|out| - 1 - i].bibcode
      ensures out[i].instruments == Kept(rows)[|out| - 1 - i].instru
      ensures out[i].archive == Archived(Kept(rows)[|out| - 1 - i].tac)
      ensures out[i].mission == KeckMission && out[i].science == ""
      ensures out[i].bibcode != "" && out[i].archive <= 1
    {
      var row := Kept(rows)[|out| - 1 - i];
      assert out[i] == ToExport(row);
      assert row.bibcode != "";
    }
  }

  /** The check script's loop. */
  method CheckLegacy(rows: seq<LegacyRow>) returns (out: seq<ImportRecord>)
    ensures |out| == |Kept(rows)|
    ensures forall i :: 0 <= i < |out| ==> out[i].bibcode == Kept(rows)[|out| - 1 - i].bibcode
    ensures forall i :: 0 <= i < |out| ==> out[i].mission == KeckMission && out[i].science == ""
  {
    out := [];
    for i := 0 to |rows|
      invariant |out| == |Kept(rows[..i])|
      invariant forall j :: 0 <= j < |out| ==> out[j] == ToImport(Kept(rows[..i])[|out| - 1 - j])
    {
      assert rows[..i + 1][..i] == rows[..i];
      ghost var before := Kept(rows[..i]);
      if rows[i].bibcode != "" {
        assert Kept(rows[..i + 1]) == before + [rows[i]];
        out := [ToImport(rows[i])] + out;
      } else {
        assert Kept(rows[..i + 1]) == before;
      }
    }
    assert rows[..|rows|] == rows;
  }

  lemma {:induction false} SubstringUpper(p: string, s: string)
    requires IsSubstring(p, s)
    ensures IsSubstring(Upper(p), Upper(s))
  {
    var i := SubstringWitness(p, s);
    assert Upper(s)[i..][..|p|] == Upper(p);
    SubstringAt(Upper(p), Upper(s), i);
  }

  lemma {:induction false} SubstringLower(p: string, s: string)
    requires IsSubstring(p, s)
    ensures IsSubstring(Lower(p), Lower(s))
  {
    var i := SubstringWitness(p, s);
    assert Lower(s)[i..][..|p|] == Lower(p);
    SubstringAt(Lower(p), Lower(s), i);
  }

  /** The archive flag ignores letter case: it is set exactly when the TAC
      cell mentions "koa" once both are lower-cased, so "koa", "Koa" and
      "KOA" all count. */
  lemma ArchiveIgnoresCase(tac: string)
    ensures Archived(tac) == 1 <==> IsSubstring("koa", Lower(tac))
    ensures Archived(tac) <= 1
  {
    assert Lower("KOA") == "koa";
    assert Upper("koa") == "KOA";
    if IsSubstring("KOA", Upper(tac)) {
      SubstringLower("KOA", Upper(tac));
      LowerUpper(tac);
    }
    if IsSubstring("koa", Lower(tac)) {
      SubstringUpper("koa", Lower(tac));
      UpperLower(tac);
    }
  }

  lemma UpperLower(s: string)
    ensures Upper(Lower(s)) == Upper(s)
  {
  }

  /** A lower-case mention sets the flag. */
  lemma LowerCaseKoaCounts()
    ensures Archived("koa") == 1
  {
    assert Upper("koa") == "KOA";
    assert IsPrefix("KOA", "KOA");
  }
}

=== FILE: menu.dfy ===
/** The classification menu of the interactive flow: the configured values
    are offered under the keys "1", "2", ..., optionally with "0" for
    "unrelated", and the typed answer is looked up in that menu; anything
    else, and every answer when nothing is configured, selects "". */
module Menu {
  import opened Text

  /** How a paper is permanently marked as not belonging to any mission. */
  const Unrelated: string := "unrelated"

  /** The key under which the `i`-th value (0-based) is offered: `str(i+1)`. */
  function MenuKey(i: nat): (key: string)
    ensures key != "0"
  {
    ShowNat(i + 1)
  }

  /** The key-to-value menu, built in the order `prompt_grouping` fills its
      dictionary. */
  function BuildMenu(values: seq<string>, addUnrelated: bool): map<string, string>
    decreases |values|
  {
    if |values| == 0 then (if addUnrelated then map["0" := Unrelated] else map[])
    else BuildMenu(values[..|values| - 1], addUnrelated)[MenuKey(|values| - 1) := values[|values| - 1]]
  }

  /** `prompt_grouping` with the answer `typed` already read. */
  function PromptGrouping(values: seq<string>, addUnrelated: bool, typed: string): (r: string)
    ensures |values| == 0 ==> r == ""
    ensures r != "" ==> r == Unrelated || r in values
  {
    if |values| == 0 then ""
    else
      var menu := BuildMenu(values, addUnrelated);
      MenuValues(values, addUnrelated);
      if typed in menu then menu[typed] else ""
  }

  /** The keys are "0", when asked for, and "1" to "n". */
  lemma {:induction false} MenuKeys(values: seq<string>, addUnrelated: bool)
    ensures forall key :: key in BuildMenu(values, addUnrelated) <==>
              (addUnrelated && key == "0") || exists i :: 0 <= i < |values| && key == MenuKey(i)
    decreases |values|
  {
    if |values| > 0 {
      var n := |values| - 1;
      MenuKeys(values[..n], addUnrelated);
      forall key
        ensures key in BuildMenu(values, addUnrelated) <==>
                (addUnrelated && key == "0") || exists i :: 0 <= i < |values| && key == MenuKey(i)
      {
        if exists i :: 0 <= i < |values| && key == MenuKey(i) {
          var i :| 0 <= i < |values| && key == MenuKey(i);
          if i < n {
            assert exists j :: 0 <= j < n && key == MenuKey(j);
          }
        }
        if key == MenuKey(n) {
          assert exists i :: 0 <= i < |values| && key == MenuKey(i);
        }
      }
    }
  }

  /** Key "i+1" holds the i-th value, and "0", when offered, "unrelated". */
  lemma {:induction false} MenuLookup(values: seq<string>, addUnrelated: bool)
    ensures forall i :: 0 <= i < |values| ==>
              MenuKey(i) in BuildMenu(values, addUnrelated)
              && BuildMenu(values, addUnrelated)[MenuKey(i)] == values[i]
    ensures addUnrelated ==> "0" in BuildMenu(values, addUnrelated)
                             && BuildMenu(values, addUnrelated)["0"] == Unrelated
    decreases |values|
  {
    if |values| > 0 {
      var n := |values| - 1;
      var init := values[..n];
      MenuLookup(init, addUnrelated);
      forall i | 0 <= i < n
        ensures MenuKey(i) != MenuKey(n)
      {
        if MenuKey(i) == MenuKey(n) {
          ShowNatInjective(i + 1, n + 1);
        }
      }
    }
  }

  /** Every menu value is "unrelated" or one of the configured values. */
  lemma {:induction false} MenuValues(values: seq<string>, addUnrelated: bool)
    ensures forall key :: key in BuildMenu(values, addUnrelated) ==>
              BuildMenu(values, addUnrelated)[key] == Unrelated || BuildMenu(values, addUnrelated)[key] in values
    decreases |values|
  {
    if |values| > 0 {
      MenuValues(values[..|values| - 1], addUnrelated);
    }
  }

  /** Typing "i+1" selects the i-th configured value. */
  lemma SelectValue(values: seq<string>, addUnrelated: bool, i: nat)
    requires i < |values|
    ensures PromptGrouping(values, addUnrelated, MenuKey(i)) == values[i]
  {
    MenuLookup(values, addUnrelated);
  }

  /** Typing "0" selects "unrelated" exactly when it is offered. */
  lemma SelectZero(values: seq<string>, addUnrelated: bool)
    requires |values| > 0
    ensures PromptGrouping(values, addUnrelated, "0") == (if addUnrelated then Unrelated else "")
  {
    MenuKeys(values, addUnrelated);
    MenuLookup(values, addUnrelated);
  }

  /** Any other answer, including the empty one, selects "". */
  lemma OtherAnswerSelectsNothing(values: seq<string>, addUnrelated: bool, typed: string)
    requires typed != "0"
    requires forall i :: 0 <= i < |values| ==> typed != MenuKey(i)
    ensures PromptGrouping(values, addUnrelated, typed) == ""
  {
    MenuKeys(values, addUnrelated);
  }
}

=== FILE: metrics.dfy ===
/** `get_metrics`: over the related papers of the chosen years it counts
    publications, refereed papers, PhD theses, citations and distinct
    authors, overall and per configured mission, counts papers per
    configured science, and turns the mission and science counts into
    fractions of the publication count. A scanned paper whose mission is
    not configured makes the whole call fail. */
module Metrics {
  import opened Text
  import opened Wrappers
  import opened Records

  /** The configured mission and science names. */
  datatype Config = Config(missions: seq<string>, sciences: seq<string>)

  /** The tallies kept for all papers and for each mission. */
  datatype Tally = Tally(
    publications: nat, refereed: nat, citations: nat, phd: nat,
    authors: nat, firstAuthors: nat)

  datatype MissionMetrics = MissionMetrics(tally: Tally, fraction: real)
  datatype ScienceMetrics = ScienceMetrics(count: nat, fraction: real)

  datatype Metrics = Metrics(
    overall: Tally,
    missions: map<string, MissionMetrics>,
    sciences: map<string, ScienceMetrics>)

  /** A thesis: the bibcode mentions "PhDT". */
  predicate IsPhd(p: Pub) {
    IsSubstring("PhDT", p.bibcode)
  }

  /** Refereed: the property list exists and holds "REFEREED"; a missing
      list counts as not refereed. */
  predicate IsRefereed(p: Pub) {
    p.property.Some? && "REFEREED" in p.property.value
  }

  function One(p: Pub): nat { 1 }
  function PhdWeight(p: Pub): nat { if IsPhd(p) then 1 else 0 }
  function RefereedWeight(p: Pub): nat { if IsRefereed(p) then 1 else 0 }

  /** A missing citation count adds nothing. */
  function Citations(p: Pub): nat {
    if p.citationCount.Some? then p.citationCount.value else 0
  }

  /** The sum of `w` over the rows. */
  function Total(rows: seq<Pub>, w: Pub -> nat): nat
    decreases |rows|
  {
    if |rows| == 0 then 0 else Total(rows[..|rows| - 1], w) + w(rows[|rows| - 1])
  }

  /** Every author entry of the rows, in order. */
  function AuthorsOf(rows: seq<Pub>): seq<string>
    decreases |rows|
  {
    if |rows| == 0 then [] else AuthorsOf(rows[..|rows| - 1]) + rows[|rows| - 1].authorNorm
  }

  /** The first author of every row, in order. */
  function FirstAuthorsOf(rows: seq<Pub>): (names: seq<string>)
    ensures |names| == |rows|
  {
    seq(|rows|, i requires 0 <= i < |rows| => rows[i].firstAuthorNorm)
  }

  /** Number of distinct names: `np.unique(names).size`. */
  function Distinct(names: seq<string>): nat {
    |set x | x in names|
  }

  /** The rows of one mission, in order. */
  function MissionRows(rows: seq<Pub>, m: string): (sel: seq<Pub>)
    ensures |sel| <= |rows|
    decreases |rows|
  {
    if |rows| == 0 then []
    else
      var init := MissionRows(rows[..|rows| - 1], m);
      if rows[|rows| - 1].mission == m then init + [rows[|rows| - 1]] else init
  }

  /** The rows of one science, in order. */
  function ScienceRows(rows: seq<Pub>, s: string): (sel: seq<Pub>)
    ensures |sel| <= |rows|
    decreases |rows|
  {
    if |rows| == 0 then []
    else
      var init := ScienceRows(rows[..|rows| - 1], s);
      if rows[|rows| - 1].science == s then init + [rows[|rows| - 1]] else init
  }

  /** A count as a fraction of the publication count, 0 when there are no
      publications. */
  function Fraction(count: nat, pubcount: nat): (f: real)
    ensures pubcount == 0 ==> f == 0.0
    ensures pubcount > 0 ==> f * pubcount as real == count as real
    ensures count <= pubcount ==> 0.0 <= f <= 1.0
  {
    if pubcount > 0 then count as real / pubcount as real else 0.0
  }

  /** The names some row lists among its authors. */
  function Listed(rows: seq<Pub>): set<string> {
    set k, x | 0 <= k < |rows| && x in rows[k].authorNorm :: x
  }

  /** The names some row has as first author. */
  function FirstListed(rows: seq<Pub>): set<string> {
    set k | 0 <= k < |rows| :: rows[k].firstAuthorNorm
  }

  /** The names some row of mission `m` lists among its authors. */
  function MissionListed(rows: seq<Pub>, m: string): set<string> {
    set k, x | 0 <= k < |rows| && rows[k].mission == m && x in rows[k].authorNorm :: x
  }

  /** The names some row of mission `m` has as first author. */
  function MissionFirstListed(rows: seq<Pub>, m: string): set<string> {
    set k | 0 <= k < |rows| && rows[k].mission == m :: rows[k].firstAuthorNorm
  }

  /** The positions of the rows of science `s`. */
  function WithScience(rows: seq<Pub>, s: string): set<int> {
    set i | 0 <= i < |rows| && rows[i].science == s
  }

  /** The positions of the rows of mission `m`. */
  function WithMission(rows: seq<Pub>, m: string): set<int> {
    set i | 0 <= i < |rows| && rows[i].mission == m
  }

  /** The tallies of a sequence of rows. */
  function TallyOf(rows: seq<Pub>): (t: Tally)
    ensures t.publications == |rows|
    ensures t.refereed <= t.publications && t.phd <= t.publications
    ensures t.firstAuthors <= t.publications
    ensures t.authors <= |AuthorsOf(rows)|
    ensures t.authors == |Listed(rows)|
    ensures t.firstAuthors == |FirstListed(rows)|
  {
    AuthorSet(rows);
    FirstAuthorSet(rows);
    TotalBound(rows, One);
    TotalBound(rows, RefereedWeight);
    TotalBound(rows, PhdWeight);
    DistinctBound(AuthorsOf(rows));
    DistinctBound(FirstAuthorsOf(rows));
    Tally(Total(rows, One), Total(rows, RefereedWeight), Total(rows, Citations), Total(rows, PhdWeight),
          Distinct(AuthorsOf(rows)), Distinct(FirstAuthorsOf(rows)))
  }

  /** The distinct author names are those some row lists. */
  lemma AuthorSet(rows: seq<Pub>)
    ensures (set x | x in AuthorsOf(rows)) == Listed(rows)
  {
    AuthorsMembers(rows);
    forall x | x in AuthorsOf(rows)
      ensures x in Listed(rows)
    {
      var p :| p in rows && x in p.authorNorm;
      var k :| 0 <= k < |rows| && rows[k] == p;
    }
  }

  /** The distinct first authors are those of the rows. */
  lemma FirstAuthorSet(rows: seq<Pub>)
    ensures (set x | x in FirstAuthorsOf(rows)) == FirstListed(rows)
  {
    var names := FirstAuthorsOf(rows);
    forall x | x in names
      ensures x in FirstListed(rows)
    {
      var k :| 0 <= k < |names| && names[k] == x;
    }
    forall k | 0 <= k < |rows|
      ensures rows[k].firstAuthorNorm in names
    {
      assert names[k] == rows[k].firstAuthorNorm;
    }
  }

  /** Adding a row at the end adds one publication, its refereed and
      thesis marks, and its citation count when present; no rows tally
      nothing. */
  lemma TallyOfSnoc(rows: seq<Pub>, p: Pub)
    ensures TallyOf([]) == Tally(0, 0, 0, 0, 0, 0)
    ensures TallyOf(rows + [p]).publications == TallyOf(rows).publications + 1
    ensures TallyOf(rows + [p]).refereed ==
              TallyOf(rows).refereed + (if p.property.Some? && "REFEREED" in p.property.value then 1 else 0)
    ensures TallyOf(rows + [p]).phd == TallyOf(rows).phd + (if IsSubstring("PhDT", p.bibcode) then 1 else 0)
    ensures TallyOf(rows + [p]).citations ==
              TallyOf(rows).citations + (if p.citationCount.Some? then p.citationCount.value else 0)
  {
    TotalSnoc(rows, p, One);
    TotalSnoc(rows, p, RefereedWeight);
    TotalSnoc(rows, p, PhdWeight);
    TotalSnoc(rows, p, Citations);
  }

  /** The mission of the first scanned row whose mission is not configured:
      the key `get_metrics` fails on. */
  function Unconfigured(rows: seq<Pub>, missions: seq<string>): (r: Option<string>)
    ensures r.None? <==> forall i :: 0 <= i < |rows| ==> rows[i].mission in missions
    ensures r.Some? ==> r.value !in missions && exists i :: 0 <= i < |rows| && rows[i].mission == r.value
    decreases |rows|
  {
    if |rows| == 0 then None
    else if rows[0].mission !in missions then Some(rows[0].mission)
    else
      var r := Unconfigured(rows[1..], missions);
      assert forall i :: 0 < i < |rows| ==> rows[i] == rows[1..][i - 1];
      r
  }

  /** The related papers `get_metrics` scans. */
  function Scanned(db: seq<Pub>, year: YearFilter): seq<Pub> {
    Query(db, Filter(None, None, year))
  }

  /** `get_metrics`. */
  function GetMetrics(db: seq<Pub>, config: Config, year: YearFilter): (r: Result<Metrics, string>)
    ensures r.Failure? <==> exists p :: p in Scanned(db, year) && p.mission !in config.missions
    ensures r.Failure? ==> r.error !in config.missions && exists p :: p in Scanned(db, year) && p.mission == r.error
    ensures r.Success? ==> r.value.overall.publications == |Scanned(db, year)|
    ensures r.Success? ==> r.value.missions.Keys == set m | m in config.missions
    ensures r.Success? ==> r.value.sciences.Keys == set s | s in config.sciences
    ensures r.Success? ==> forall s :: s in config.sciences ==>
              r.value.sciences[s].count == |WithScience(Scanned(db, year), s)|
    ensures r.Success? ==> forall m :: m in config.missions ==>
              r.value.missions[m].tally.publications
              == |WithMission(Scanned(db, year), m)|
  {
    var rows := Scanned(db, year);
    match Unconfigured(rows, config.missions)
    case Some(m) => Failure(m)
    case None => Success(MetricsOf(rows, config))
  }

  /** The metrics of rows whose missions are all configured. */
  function MetricsOf(rows: seq<Pub>, config: Config): (r: Metrics)
    ensures r.overall.publications == |rows|
    ensures r.missions.Keys == set m | m in config.missions
    ensures r.sciences.Keys == set s | s in config.sciences
    ensures forall s :: s in config.sciences ==>
              r.sciences[s].count == |WithScience(rows, s)|
    ensures forall m :: m in config.missions ==>
              && r.missions[m].tally.publications == |WithMission(rows, m)|
              && r.missions[m].tally.authors ==
                   |MissionListed(rows, m)|
              && r.missions[m].tally.firstAuthors ==
                   |MissionFirstListed(rows, m)|
  {
    ByNameCounts(rows);
    Metrics(
      TallyOf(rows),
      map m | m in config.missions ::
        MissionMetrics(TallyOf(MissionRows(rows, m)), Fraction(|MissionRows(rows, m)|, |rows|)),
      map s | s in config.sciences ::
        ScienceMetrics(|ScienceRows(rows, s)|, Fraction(|ScienceRows(rows, s)|, |rows|)))
  }

  /** Every science and mission count is the number of rows carrying that
      name, and a mission's distinct authors are those its rows list. */
  lemma ByNameCounts(rows: seq<Pub>)
    ensures forall s :: |ScienceRows(rows, s)| == |WithScience(rows, s)|
    ensures forall m ::
              && |MissionRows(rows, m)| == |WithMission(rows, m)|
              && TallyOf(MissionRows(rows, m)).authors ==
                   |MissionListed(rows, m)|
              && TallyOf(MissionRows(rows, m)).firstAuthors ==
                   |MissionFirstListed(rows, m)|
  {
    forall s ensures |ScienceRows(rows, s)| == |WithScience(rows, s)| {
      ScienceCount(rows, s);
    }
    forall m
      ensures |MissionRows(rows, m)| == |WithMission(rows, m)|
      ensures TallyOf(MissionRows(rows, m)).authors ==
                |MissionListed(rows, m)|
      ensures TallyOf(MissionRows(rows, m)).firstAuthors ==
                |MissionFirstListed(rows, m)|
    {
      MissionCount(rows, m);
      MissionAuthorSets(rows, m);
    }
  }

  lemma {:induction false} ScienceCount(rows: seq<Pub>, s: string)
    ensures |ScienceRows(rows, s)| == |WithScience(rows, s)|
    decreases |rows|
  {
    if |rows| > 0 {
      var n := |rows| - 1;
      var init := rows[..n];
      ScienceCount(init, s);
      var before := WithScience(init, s);
      assert WithScience(rows, s)
             == before + (if rows[n].science == s then {n} else {});
      assert n !in before;
    }
  }

  lemma {:induction false} MissionCount(rows: seq<Pub>, m: string)
    ensures |MissionRows(rows, m)| == |WithMission(rows, m)|
    decreases |rows|
  {
    if |rows| > 0 {
      var n := |rows| - 1;
      var init := rows[..n];
      MissionCount(init, m);
      var before := WithMission(init, m);
      assert WithMission(rows, m)
             == before + (if rows[n].mission == m then {n} else {});
      assert n !in before;
    }
  }

  /** The author names of a mission's rows are those of the rows with that
      mission. */
  lemma MissionAuthorSets(rows: seq<Pub>, m: string)
    ensures Listed(MissionRows(rows, m)) == MissionListed(rows, m)
    ensures FirstListed(MissionRows(rows, m)) == MissionFirstListed(rows, m)
  {
    var sel := MissionRows(rows, m);
    MissionRowsMembers(rows, m);
    forall x | x in Listed(sel) ensures x in MissionListed(rows, m) {
      var k :| 0 <= k < |sel| && x in sel[k].authorNorm;
      assert sel[k] in sel;
      var j :| 0 <= j < |rows| && rows[j] == sel[k];
    }
    forall x | x in MissionListed(rows, m) ensures x in Listed(sel) {
      var k :| 0 <= k < |rows| && rows[k].mission == m && x in rows[k].authorNorm;
      assert rows[k] in rows;
      var j :| 0 <= j < |sel| && sel[j] == rows[k];
    }
    forall x | x in FirstListed(sel) ensures x in MissionFirstListed(rows, m) {
      var k :| 0 <= k < |sel| && sel[k].firstAuthorNorm == x;
      assert sel[k] in sel;
      var j :| 0 <= j < |rows| && rows[j] == sel[k];
    }
    forall x | x in MissionFirstListed(rows, m) ensures x in FirstListed(sel) {
      var k :| 0 <= k < |rows| && rows[k].mission == m && rows[k].firstAuthorNorm == x;
      assert rows[k] in rows;
      var j :| 0 <= j < |sel| && sel[j] == rows[k];
    }
  }

  /** A mission's tallies start at zero, and a row added at the end adds to
      them only when it belongs to the mission. */
  lemma MissionTallySnoc(rows: seq<Pub>, p: Pub, config: Config, m: string)
    requires m in config.missions
    ensures MetricsOf([], config).missions[m].tally == Tally(0, 0, 0, 0, 0, 0)
    ensures var before := MetricsOf(rows, config).missions[m].tally;
      var after := MetricsOf(rows + [p], config).missions[m].tally;
      && after.publications == before.publications + (if p.mission == m then 1 else 0)
      && after.refereed == before.refereed +
           (if p.mission == m && p.property.Some? && "REFEREED" in p.property.value then 1 else 0)
      && after.phd == before.phd + (if p.mission == m && IsSubstring("PhDT", p.bibcode) then 1 else 0)
      && after.citations == before.citations +
           (if p.mission == m && p.citationCount.Some? then p.citationCount.value else 0)
  {
    var sel := MissionRows(rows, m);
    assert (rows + [p])[..|rows|] == rows;
    assert MissionRows(rows + [p], m) == if p.mission == m then sel + [p] else sel;
    TallyOfSnoc(sel, p);
  }

  lemma {:induction false} MissionRowsMembers(rows: seq<Pub>, m: string)
    ensures forall p :: p in MissionRows(rows, m) <==> p in rows && p.mission == m
    decreases |rows|
  {
    if |rows| > 0 {
      var init := rows[..|rows| - 1];
      MissionRowsMembers(init, m);
      assert rows == init + [rows[|rows| - 1]];
    }
  }

  lemma {:induction false} TotalBound(rows: seq<Pub>, w: Pub -> nat)
    requires forall p :: w(p) <= 1
    ensures Total(rows, w) <= |rows|
    ensures (forall p :: w(p) == 1) ==> Total(rows, w) == |rows|
    decreases |rows|
  {
    if |rows| > 0 {
      TotalBound(rows[..|rows| - 1], w);
    }
  }

  lemma {:induction false} DistinctBound(names: seq<string>)
    ensures Distinct(names) <= |names|
    decreases |names|
  {
    if |names| > 0 {
      var init := names[..|names| - 1];
      DistinctBound(init);
      assert (set x | x in names) == (set x | x in init) + {names[|names| - 1]} by {
        assert names == init + [names[|names| - 1]];
      }
    }
  }

  lemma {:induction false} TotalAppend(a: seq<Pub>, b: seq<Pub>, w: Pub -> nat)
    ensures Total(a + b, w) == Total(a, w) + Total(b, w)
    decreases |b|
  {
    if |b| > 0 {
      assert (a + b)[..|a + b| - 1] == a + b[..|b| - 1];
      TotalAppend(a, b[..|b| - 1], w);
    } else {
      assert a + b == a;
    }
  }

  lemma TotalSingle(p: Pub, w: Pub -> nat)
    ensures Total([p], w) == w(p)
  {
    assert [p][..0] == [];
  }

  /** The tallies do not depend on the order of the rows: any permutation
      gives the same sum. */
  lemma {:induction false} TotalPermutation(a: seq<Pub>, b: seq<Pub>, w: Pub -> nat)
    requires multiset(a) == multiset(b)
    ensures Total(a, w) == Total(b, w)
    decreases |a|
  {
    if |a| > 0 {
      var n := |a| - 1;
      var x := a[n];
      assert a == a[..n] + [x];
      assert x in multiset(b);
      var k :| 0 <= k < |b| && b[k] == x;
      var rest := b[..k] + b[k + 1..];
      assert b == b[..k] + [x] + b[k + 1..];
      assert multiset(b) == multiset(b[..k]) + multiset{x} + multiset(b[k + 1..]);
      assert multiset(a) == multiset(a[..n]) + multiset{x};
      assert multiset(rest) == multiset(b[..k]) + multiset(b[k + 1..]);
      assert multiset(rest) == multiset(b) - multiset{x};
      assert multiset(a[..n]) == multiset(a) - multiset{x};
      TotalPermutation(a[..n], rest, w);
      TotalAppend(a[..n], [x], w);
      TotalAppend(b[..k] + [x], b[k + 1..], w);
      TotalAppend(b[..k], [x], w);
      TotalAppend(b[..k], b[k + 1..], w);
      TotalSingle(x, w);
    }
  }

  lemma {:induction false} AuthorsMembers(rows: seq<Pub>)
    ensures forall x :: x in AuthorsOf(rows) <==> exists p :: p in rows && x in p.authorNorm
    decreases |rows|
  {
    if |rows| > 0 {
      var init := rows[..|rows| - 1];
      AuthorsMembers(init);
      assert rows == init + [rows[|rows| - 1]];
    }
  }

  /** Distinct-author counts depend only on which papers are scanned. */
  lemma AuthorCountsPermutation(a: seq<Pub>, b: seq<Pub>)
    requires multiset(a) == multiset(b)
    ensures Distinct(AuthorsOf(a)) == Distinct(AuthorsOf(b))
    ensures Distinct(FirstAuthorsOf(a)) == Distinct(FirstAuthorsOf(b))
  {
    AuthorsMembers(a);
    AuthorsMembers(b);
    assert forall p :: p in a <==> p in multiset(a);
    assert forall p :: p in b <==> p in multiset(b);
    assert (set x | x in AuthorsOf(a)) == (set x | x in AuthorsOf(b));
    forall x | x in FirstAuthorsOf(a) ensures x in FirstAuthorsOf(b) {
      var i :| 0 <= i < |a| && FirstAuthorsOf(a)[i] == x;
      assert a[i] in multiset(b);
      var j :| 0 <= j < |b| && b[j] == a[i];
      assert FirstAuthorsOf(b)[j] == x;
    }
    forall x | x in FirstAuthorsOf(b) ensures x in FirstAuthorsOf(a) {
      var i :| 0 <= i < |b| && FirstAuthorsOf(b)[i] == x;
      assert b[i] in multiset(a);
      var j :| 0 <= j < |a| && a[j] == b[i];
      assert FirstAuthorsOf(a)[j] == x;
    }
    assert (set x | x in FirstAuthorsOf(a)) == (set x | x in FirstAuthorsOf(b));
  }

  /** The tally of a sequence of rows does not depend on their order. */
  lemma TallyPermutation(a: seq<Pub>, b: seq<Pub>)
    requires multiset(a) == multiset(b)
    ensures TallyOf(a) == TallyOf(b)
  {
    TotalPermutation(a, b, One);
    TotalPermutation(a, b, RefereedWeight);
    TotalPermutation(a, b, Citations);
    TotalPermutation(a, b, PhdWeight);
    AuthorCountsPermutation(a, b);
  }

  /** A list without repeated names. */
  predicate NoDuplicates(names: seq<string>) {
    forall i, j :: 0 <= i < j < |names| ==> names[i] != names[j]
  }

  /** The rows whose mission is one of `missions`, in order. */
  function InMissions(rows: seq<Pub>, missions: seq<string>): seq<Pub>
    decreases |rows|
  {
    if |rows| == 0 then []
    else
      var init := InMissions(rows[..|rows| - 1], missions);
      if rows[|rows| - 1].mission in missions then init + [rows[|rows| - 1]] else init
  }

  /** The sum, over the listed missions, of `w` totalled over each
      mission's rows. */
  function MissionSum(rows: seq<Pub>, missions: seq<string>, w: Pub -> nat): nat
    decreases |missions|
  {
    if |missions| == 0 then 0
    else MissionSum(rows, missions[..|missions| - 1], w) + Total(MissionRows(rows, missions[|missions| - 1]), w)
  }

  /** The sum, over the listed missions, of field `f` of their tallies. */
  function TallySum(mm: map<string, MissionMetrics>, missions: seq<string>, f: Tally -> nat): nat
    requires forall m :: m in missions ==> m in mm
    decreases |missions|
  {
    if |missions| == 0 then 0
    else TallySum(mm, missions[..|missions| - 1], f) + f(mm[missions[|missions| - 1]].tally)
  }

  lemma {:induction false} TotalSplit(rows: seq<Pub>, missions: seq<string>, m: string, w: Pub -> nat)
    requires m !in missions
    ensures Total(InMissions(rows, missions + [m]), w)
            == Total(InMissions(rows, missions), w) + Total(MissionRows(rows, m), w)
    decreases |rows|
  {
    if |rows| > 0 {
      var init := rows[..|rows| - 1];
      var last := rows[|rows| - 1];
      TotalSplit(init, missions, m, w);
      var both := InMissions(init, missions + [m]);
      var some := InMissions(init, missions);
      var one := MissionRows(init, m);
      assert InMissions(rows, missions + [m]) == if last.mission in missions + [m] then both + [last] else both;
      assert InMissions(rows, missions) == if last.mission in missions then some + [last] else some;
      assert MissionRows(rows, m) == if last.mission == m then one + [last] else one;
      TotalSnoc(both, last, w);
      TotalSnoc(some, last, w);
      TotalSnoc(one, last, w);
    }
  }

  /** Adding one row at the end adds its weight. */
  lemma TotalSnoc(rows: seq<Pub>, p: Pub, w: Pub -> nat)
    ensures Total(rows + [p], w) == Total(rows, w) + w(p)
  {
    assert (rows + [p])[..|rows|] == rows;
  }

  lemma {:induction false} MissionSumIsTotal(rows: seq<Pub>, missions: seq<string>, w: Pub -> nat)
    requires NoDuplicates(missions)
    ensures MissionSum(rows, missions, w) == Total(InMissions(rows, missions), w)
    decreases |missions|
  {
    if |missions| == 0 {
      InMissionsNone(rows, missions);
    } else {
      var init := missions[..|missions| - 1];
      var m := missions[|missions| - 1];
      assert missions == init + [m];
      MissionSumIsTotal(rows, init, w);
      TotalSplit(rows, init, m, w);
    }
  }

  lemma {:induction false} InMissionsNone(rows: seq<Pub>, missions: seq<string>)
    requires |missions| == 0
    ensures InMissions(rows, missions) == []
    decreases |rows|
  {
    if |rows| > 0 {
      InMissionsNone(rows[..|rows| - 1], missions);
    }
  }

  lemma {:induction false} InMissionsAll(rows: seq<Pub>, missions: seq<string>)
    requires forall i :: 0 <= i < |rows| ==> rows[i].mission in missions
    ensures InMissions(rows, missions) == rows
    decreases |rows|
  {
    if |rows| > 0 {
      InMissionsAll(rows[..|rows| - 1], missions);
    }
  }

  lemma {:induction false} TallySumIsMissionSum(
    mm: map<string, MissionMetrics>, rows: seq<Pub>, missions: seq<string>, f: Tally -> nat, w: Pub -> nat)
    requires forall m :: m in missions ==> m in mm && f(mm[m].tally) == Total(MissionRows(rows, m), w)
    ensures TallySum(mm, missions, f) == MissionSum(rows, missions, w)
    decreases |missions|
  {
    if |missions| > 0 {
      TallySumIsMissionSum(mm, rows, missions[..|missions| - 1], f, w);
    }
  }

  /** With distinct mission names, the per-mission publication, refereed,
      thesis and citation counts add up to the overall ones. */
  lemma MissionCountsSum(db: seq<Pub>, config: Config, year: YearFilter)
    requires NoDuplicates(config.missions)
    requires GetMetrics(db, config, year).Success?
    ensures var r := GetMetrics(db, config, year).value;
      TallySum(r.missions, config.missions, (t: Tally) => t.publications) == r.overall.publications
      && TallySum(r.missions, config.missions, (t: Tally) => t.refereed) == r.overall.refereed
      && TallySum(r.missions, config.missions, (t: Tally) => t.phd) == r.overall.phd
      && TallySum(r.missions, config.missions, (t: Tally) => t.citations) == r.overall.citations
  {
    var r := GetMetrics(db, config, year).value;
    var rows := Scanned(db, year);
    assert Unconfigured(rows, config.missions).None?;
    InMissionsAll(rows, config.missions);
    TallySumIsMissionSum(r.missions, rows, config.missions, (t: Tally) => t.publications, One);
    MissionSumIsTotal(rows, config.missions, One);
    TallySumIsMissionSum(r.missions, rows, config.missions, (t: Tally) => t.refereed, RefereedWeight);
    MissionSumIsTotal(rows, config.missions, RefereedWeight);
    TallySumIsMissionSum(r.missions, rows, config.missions, (t: Tally) => t.phd, PhdWeight);
    MissionSumIsTotal(rows, config.missions, PhdWeight);
    TallySumIsMissionSum(r.missions, rows, config.missions, (t: Tally) => t.citations, Citations);
    MissionSumIsTotal(rows, config.missions, Citations);
  }

  lemma {:induction false} QueryMultiset(db: seq<Pub>, f: Filter)
    ensures forall x :: multiset(Query(db, f))[x] == if Selects(f, x) then multiset(db)[x] else 0
    decreases |db|
  {
    if |db| > 0 {
      var init := db[..|db| - 1];
      QueryMultiset(init, f);
      assert db == init + [db[|db| - 1]];
    }
  }

  lemma {:induction false} MissionRowsMultiset(rows: seq<Pub>, m: string)
    ensures forall x :: multiset(MissionRows(rows, m))[x] == if x.mission == m then multiset(rows)[x] else 0
    decreases |rows|
  {
    if |rows| > 0 {
      var init := rows[..|rows| - 1];
      MissionRowsMultiset(init, m);
      assert rows == init + [rows[|rows| - 1]];
    }
  }

  lemma {:induction false} ScienceRowsMultiset(rows: seq<Pub>, s: string)
    ensures forall x :: multiset(ScienceRows(rows, s))[x] == if x.science == s then multiset(rows)[x] else 0
    decreases |rows|
  {
    if |rows| > 0 {
      var init := rows[..|rows| - 1];
      ScienceRowsMultiset(init, s);
      assert rows == init + [rows[|rows| - 1]];
    }
  }

  /** The metrics of a sequence of rows do not depend on their order. */
  lemma MetricsOfPermutation(rows1: seq<Pub>, rows2: seq<Pub>, config: Config)
    requires multiset(rows1) == multiset(rows2)
    ensures MetricsOf(rows1, config) == MetricsOf(rows2, config)
  {
    TallyPermutation(rows1, rows2);
    forall m | m in config.missions
      ensures TallyOf(MissionRows(rows1, m)) == TallyOf(MissionRows(rows2, m))
    {
      MissionRowsMultiset(rows1, m);
      MissionRowsMultiset(rows2, m);
      assert multiset(MissionRows(rows1, m)) == multiset(MissionRows(rows2, m));
      TallyPermutation(MissionRows(rows1, m), MissionRows(rows2, m));
    }
    forall s | s in config.sciences
      ensures |ScienceRows(rows1, s)| == |ScienceRows(rows2, s)|
    {
      ScienceRowsMultiset(rows1, s);
      ScienceRowsMultiset(rows2, s);
      assert multiset(ScienceRows(rows1, s)) == multiset(ScienceRows(rows2, s));
      assert |multiset(ScienceRows(rows1, s))| == |multiset(ScienceRows(rows2, s))|;
    }
    assert |multiset(rows1)| == |multiset(rows2)|;
    var missions1 := map m | m in config.missions ::
      MissionMetrics(TallyOf(MissionRows(rows1, m)), Fraction(|MissionRows(rows1, m)|, |rows1|));
    var missions2 := map m | m in config.missions ::
      MissionMetrics(TallyOf(MissionRows(rows2, m)), Fraction(|MissionRows(rows2, m)|, |rows2|));
    assert missions1 == missions2;
    var sciences1 := map s | s in config.sciences ::
      ScienceMetrics(|ScienceRows(rows1, s)|, Fraction(|ScienceRows(rows1, s)|, |rows1|));
    var sciences2 := map s | s in config.sciences ::
      ScienceMetrics(|ScienceRows(rows2, s)|, Fraction(|ScienceRows(rows2, s)|, |rows2|));
    assert sciences1 == sciences2;
    assert MetricsOf(rows1, config) == Metrics(TallyOf(rows1), missions1, sciences1);
    assert MetricsOf(rows2, config) == Metrics(TallyOf(rows2), missions2, sciences2);
  }

  /** `get_metrics` does not depend on the order of the stored papers:
      reordering them neither changes whether it fails nor, when it
      succeeds, any tally or fraction. */
  lemma MetricsOrderIndependent(db1: seq<Pub>, db2: seq<Pub>, config: Config, year: YearFilter)
    requires multiset(db1) == multiset(db2)
    ensures GetMetrics(db1, config, year).Success? == GetMetrics(db2, config, year).Success?
    ensures GetMetrics(db1, config, year).Success? ==>
              GetMetrics(db1, config, year) == GetMetrics(db2, config, year)
  {
    var f := Filter(None, None, year);
    var rows1 := Scanned(db1, year);
    var rows2 := Scanned(db2, year);
    QueryMultiset(db1, f);
    QueryMultiset(db2, f);
    assert multiset(rows1) == multiset(rows2);
    if Unconfigured(rows1, config.missions).None? {
      UnconfiguredPermutation(rows1, rows2, config.missions);
      MetricsOfPermutation(rows1, rows2, config);
    }
    if Unconfigured(rows2, config.missions).None? {
      UnconfiguredPermutation(rows2, rows1, config.missions);
    }
  }

  lemma UnconfiguredPermutation(rows1: seq<Pub>, rows2: seq<Pub>, missions: seq<string>)
    requires multiset(rows1) == multiset(rows2)
    requires Unconfigured(rows1, missions).None?
    ensures Unconfigured(rows2, missions).None?
  {
    forall i | 0 <= i < |rows2| ensures rows2[i].mission in missions {
      assert rows2[i] in multiset(rows1);
      var j :| 0 <= j < |rows1| && rows1[j] == rows2[i];
    }
  }

  /** Positions of the rows a 0/1 weight marks. */
  function Marked(rows: seq<Pub>, w: Pub -> nat): set<nat> {
    set i: nat | i < |rows| && w(rows[i]) == 1
  }

  /** A 0/1 weight totals to the number of rows it marks: the refereed and
      thesis tallies count the refereed papers and the theses. */
  lemma {:induction false} TotalCountsMarked(rows: seq<Pub>, w: Pub -> nat)
    requires forall p :: w(p) <= 1
    ensures Total(rows, w) == |Marked(rows, w)|
    decreases |rows|
  {
    if |rows| > 0 {
      var n := |rows| - 1;
      TotalCountsMarked(rows[..n], w);
      if w(rows[n]) == 1 {
        assert Marked(rows, w) == Marked(rows[..n], w) + {n};
      } else {
        assert Marked(rows, w) == Marked(rows[..n], w);
      }
    }
  }

  /** The overall thesis and refereed counts are the numbers of scanned
      papers whose bibcode mentions "PhDT" and whose property list holds
      "REFEREED". */
  lemma PhdAndRefereedCounts(db: seq<Pub>, config: Config, year: YearFilter)
    requires GetMetrics(db, config, year).Success?
    ensures var rows := Scanned(db, year);
      var r := GetMetrics(db, config, year).value;
      r.overall.phd == |set i: nat | i < |rows| && IsPhd(rows[i])|
      && r.overall.refereed == |set i: nat | i < |rows| && IsRefereed(rows[i])|
  {
    var rows := Scanned(db, year);
    TotalCountsMarked(rows, PhdWeight);
    TotalCountsMarked(rows, RefereedWeight);
    assert Marked(rows, PhdWeight) == set i: nat | i < |rows| && IsPhd(rows[i]);
    assert Marked(rows, RefereedWeight) == set i: nat | i < |rows| && IsRefereed(rows[i]);
  }

  /** Each mission's and science's fraction is its count as a share of the
      publication count (see `Fraction`). */
  lemma FractionsAreShares(rows: seq<Pub>, config: Config, name: string)
    ensures var r := MetricsOf(rows, config);
      (name in config.missions ==>
         r.missions[name].fraction == Fraction(r.missions[name].tally.publications, r.overall.publications))
      && (name in config.sciences ==>
         r.sciences[name].fraction == Fraction(r.sciences[name].count, r.overall.publications))
  {
    var r := MetricsOf(rows, config);
    if name in config.missions {
      var sel := MissionRows(rows, name);
      assert r.missions[name] == MissionMetrics(TallyOf(sel), Fraction(|sel|, |rows|));
    }
    if name in config.sciences {
      var sel := ScienceRows(rows, name);
      assert r.sciences[name] == ScienceMetrics(|sel|, Fraction(|sel|, |rows|));
    }
  }
}

=== FILE: rankings.dfy ===
/** `get_most_cited` and `get_most_active_first_authors`. The first sorts
    the queried papers by citation count, a missing count reading as 0, and
    keeps the first `top` of the descending order. The second tallies first
    authors over the related papers, sorts the tallies by paper count, masks
    the sorted counts with `count >= min_papers` and zips the sorted names
    with the masked counts. The sort is modelled by a descending insertion
    sort; which of several equal keys comes first is not modelled. */
module Rankings {
  import opened Wrappers
  import opened Records
  import opened Metrics

  predicate SortedDesc<T>(s: seq<T>, key: T -> int) {
    forall i, j :: 0 <= i < j < |s| ==> key(s[i]) >= key(s[j])
  }

  /** Insert `x` into a descending sequence before the first smaller key. */
  function Insert<T>(x: T, s: seq<T>, key: T -> int): (r: seq<T>)
    requires SortedDesc(s, key)
    ensures multiset(r) == multiset(s) + multiset{x}
    ensures SortedDesc(r, key)
    decreases |s|
  {
    if |s| == 0 then [x]
    else if key(x) >= key(s[0]) then [x] + s
    else
      var rest := Insert(x, s[1..], key);
      assert s == [s[0]] + s[1..];
      HeadBoundsInsertion(x, s, rest, key);
      ConsSorted(s[0], rest, key);
      [s[0]] + rest
  }

  /** Inserting a smaller element into the tail keeps every key at most the head's. */
  lemma HeadBoundsInsertion<T>(x: T, s: seq<T>, rest: seq<T>, key: T -> int)
    requires |s| > 0 && SortedDesc(s, key) && key(x) < key(s[0])
    requires multiset(rest) == multiset(s[1..]) + multiset{x}
    ensures forall k :: 0 <= k < |rest| ==> key(rest[k]) <= key(s[0])
  {
    forall k | 0 <= k < |rest| ensures key(rest[k]) <= key(s[0]) {
      assert rest[k] in multiset(rest);
      if rest[k] != x {
        assert rest[k] in multiset(s[1..]);
        var j :| 0 <= j < |s[1..]| && s[1..][j] == rest[k];
        assert s[j + 1] == rest[k];
      }
    }
  }

  lemma ConsSorted<T>(h: T, rest: seq<T>, key: T -> int)
    requires SortedDesc(rest, key)
    requires forall k :: 0 <= k < |rest| ==> key(rest[k]) <= key(h)
    ensures SortedDesc([h] + rest, key)
  {
    var r := [h] + rest;
    forall i, j | 0 <= i < j < |r| ensures key(r[i]) >= key(r[j]) {
      assert r[j] == rest[j - 1];
      if i > 0 {
        assert r[i] == rest[i - 1];
      }
    }
  }

  /** The elements of `s` in descending key order. */
  function SortDesc<T>(s: seq<T>, key: T -> int): (r: seq<T>)
    ensures multiset(r) == multiset(s) && |r| == |s|
    ensures SortedDesc(r, key)
    decreases |s|
  {
    if |s| == 0 then []
    else
      assert s == [s[0]] + s[1..];
      Insert(s[0], SortDesc(s[1..], key), key)
  }

  /** Python's slice `[0:top]` keeps index `i` of `n` when `i` lies below
      the stop, a negative stop counting from the end. */
  predicate SliceKeeps(top: int, n: nat, i: int) {
    (top >= 0 && i < top) || (top < 0 && i < n + top)
  }

  /** How many elements a Python slice `[0:top]` keeps of `n`. */
  function SliceLength(top: int, n: nat): (k: nat)
    ensures k <= n
    ensures forall i :: 0 <= i < n ==> (i < k <==> SliceKeeps(top, n, i))
  {
    if top >= 0 then (if top < n then top else n)
    else if n + top > 0 then n + top else 0
  }

  /** The sort key of `get_most_cited`: the citation count, 0 when missing. */
  function CitationKey(p: Pub): int { Citations(p) }

  /** `get_most_cited`'s ranking of the queried papers. */
  function CitationOrder(db: seq<Pub>, mission: Option<string>, science: Option<string>): seq<Pub> {
    SortDesc(Query(db, Filter(mission, science, AnyYear)), CitationKey)
  }

  /** `get_most_cited`. */
  function MostCited(db: seq<Pub>, mission: Option<string>, science: Option<string>, top: int): (r: seq<Pub>)
    ensures |r| == SliceLength(top, |Query(db, Filter(mission, science, AnyYear))|)
    ensures SortedDesc(r, CitationKey)
  {
    var order := CitationOrder(db, mission, science);
    order[..SliceLength(top, |order|)]
  }

  /** The result has the length of the slice, runs in non-increasing
      citation order, is drawn from the queried papers, and every queried
      paper left out has no more citations than any paper kept. */
  lemma MostCitedIsTop(db: seq<Pub>, mission: Option<string>, science: Option<string>, top: int)
    ensures var rows := Query(db, Filter(mission, science, AnyYear));
      var r := MostCited(db, mission, science, top);
      var rest := CitationOrder(db, mission, science)[|r|..];
      |r| == SliceLength(top, |rows|)
      && SortedDesc(r, CitationKey)
      && multiset(r) + multiset(rest) == multiset(rows)
      && (forall i, j :: 0 <= i < |r| && 0 <= j < |rest| ==> Citations(r[i]) >= Citations(rest[j]))
  {
    var order := CitationOrder(db, mission, science);
    var k := SliceLength(top, |order|);
    assert order == order[..k] + order[k..];
  }

  /** Every returned paper is a stored paper that passes the query filter. */
  lemma MostCitedSelects(db: seq<Pub>, mission: Option<string>, science: Option<string>, top: int, p: Pub)
    requires p in MostCited(db, mission, science, top)
    ensures p in db && Selects(Filter(mission, science, AnyYear), p)
  {
    var rows := Query(db, Filter(mission, science, AnyYear));
    var order := CitationOrder(db, mission, science);
    assert p in order;
    assert p in multiset(rows);
    QueryMembers(db, Filter(mission, science, AnyYear));
  }

  /** One author's tally. */
  datatype Score = Score(name: string, papers: nat)

  function Papers(s: Score): int { s.papers }

  /** Position of `name` among the tallies, if present. */
  function FindName(tallies: seq<Score>, name: string): (r: Option<nat>)
    ensures r.Some? ==> r.value < |tallies| && tallies[r.value].name == name
    ensures r.None? ==> forall i :: 0 <= i < |tallies| ==> tallies[i].name != name
    decreases |tallies|
  {
    if |tallies| == 0 then None
    else if tallies[|tallies| - 1].name == name then Some(|tallies| - 1)
    else FindName(tallies[..|tallies| - 1], name)
  }

  /** The `authors` dictionary: one tally per first author, in order of
      first appearance; a known author's count goes up by one, a new one
      starts at one. */
  function TallyNames(names: seq<string>): seq<Score>
    decreases |names|
  {
    if |names| == 0 then []
    else
      var before := TallyNames(names[..|names| - 1]);
      var name := names[|names| - 1];
      match FindName(before, name)
      case Some(i) => before[i := Score(name, before[i].papers + 1)]
      case None => before + [Score(name, 1)]
  }

  /** The sum of the paper counts. */
  function SumPapers(tallies: seq<Score>): nat
    decreases |tallies|
  {
    if |tallies| == 0 then 0 else SumPapers(tallies[..|tallies| - 1]) + tallies[|tallies| - 1].papers
  }

  predicate DistinctNames(tallies: seq<Score>) {
    forall i, j :: 0 <= i < j < |tallies| ==> tallies[i].name != tallies[j].name
  }

  lemma {:induction false} SumPapersIncrement(tallies: seq<Score>, i: nat)
    requires i < |tallies|
    ensures SumPapers(tallies[i := Score(tallies[i].name, tallies[i].papers + 1)]) == SumPapers(tallies) + 1
    decreases |tallies|
  {
    var after := tallies[i := Score(tallies[i].name, tallies[i].papers + 1)];
    var n := |tallies| - 1;
    if i < n {
      assert after[..n] == tallies[..n][i := Score(tallies[i].name, tallies[i].papers + 1)];
      SumPapersIncrement(tallies[..n], i);
    } else {
      assert after[..n] == tallies[..n];
    }
  }

  lemma SumPapersAppend(tallies: seq<Score>, s: Score)
    ensures SumPapers(tallies + [s]) == SumPapers(tallies) + s.papers
  {
    assert (tallies + [s])[..|tallies|] == tallies;
  }

  /** The tallies name every first author, and each exactly once. */
  lemma {:induction false} TallyNamesKeys(names: seq<string>)
    ensures DistinctNames(TallyNames(names))
    ensures forall x :: x in names <==> FindName(TallyNames(names), x).Some?
    decreases |names|
  {
    if |names| > 0 {
      var init := names[..|names| - 1];
      var name := names[|names| - 1];
      assert names == init + [name];
      TallyNamesKeys(init);
      var before := TallyNames(init);
      match FindName(before, name)
      case Some(i) =>
        var after := before[i := Score(name, before[i].papers + 1)];
        forall x ensures FindName(after, x).Some? == FindName(before, x).Some? {
          if FindName(before, x).Some? {
            var j := FindName(before, x).value;
            assert after[j].name == x;
          }
          if FindName(after, x).Some? {
            var j := FindName(after, x).value;
            assert before[j].name == x;
          }
        }
      case None =>
        var after := before + [Score(name, 1)];
        forall x ensures FindName(after, x).Some? == (FindName(before, x).Some? || x == name) {
          if FindName(before, x).Some? {
            var j := FindName(before, x).value;
            assert after[j].name == x;
          }
        }
    }
  }

  /** Each tally is the number of papers its author led. */
  lemma {:induction false} TallyNamesCounts(names: seq<string>)
    ensures forall i :: 0 <= i < |TallyNames(names)| ==>
              TallyNames(names)[i].papers == multiset(names)[TallyNames(names)[i].name]
    decreases |names|
  {
    if |names| > 0 {
      var init := names[..|names| - 1];
      var name := names[|names| - 1];
      assert names == init + [name];
      assert multiset(names) == multiset(init) + multiset{name};
      TallyNamesCounts(init);
      TallyNamesKeys(init);
      var before := TallyNames(init);
      forall j | 0 <= j < |before| && before[j].name != name
        ensures multiset(names)[before[j].name] == multiset(init)[before[j].name]
      {
      }
      if FindName(before, name).None? {
        assert name !in init;
        assert multiset(init)[name] == 0;
      }
    }
  }

  /** The tallies add up to the number of papers. */
  lemma {:induction false} TallyNamesSum(names: seq<string>)
    ensures SumPapers(TallyNames(names)) == |names|
    decreases |names|
  {
    if |names| > 0 {
      var init := names[..|names| - 1];
      var name := names[|names| - 1];
      TallyNamesSum(init);
      var before := TallyNames(init);
      match FindName(before, name)
      case Some(i) => SumPapersIncrement(before, i);
      case None => SumPapersAppend(before, Score(name, 1));
    }
  }

  /** The counts the boolean mask `count >= min_papers` keeps, in order. */
  function MaskedCounts(sorted: seq<Score>, minPapers: int): seq<nat>
    decreases |sorted|
  {
    if |sorted| == 0 then []
    else if sorted[0].papers >= minPapers then [sorted[0].papers] + MaskedCounts(sorted[1..], minPapers)
    else MaskedCounts(sorted[1..], minPapers)
  }

  /** Python's `zip`: pairs up to the shorter length. */
  function Zip(names: seq<string>, counts: seq<nat>): (r: seq<Score>)
    ensures |r| == if |names| < |counts| then |names| else |counts|
    ensures forall k :: 0 <= k < |r| ==> r[k] == Score(names[k], counts[k])
  {
    var n := if |names| < |counts| then |names| else |counts|;
    seq(n, k requires 0 <= k < n => Score(names[k], counts[k]))
  }

  function NamesOf(tallies: seq<Score>): (names: seq<string>)
    ensures |names| == |tallies|
  {
    seq(|tallies|, k requires 0 <= k < |tallies| => tallies[k].name)
  }

  /** The first-author tallies in descending paper order. */
  function AuthorOrder(db: seq<Pub>): seq<Score> {
    SortDesc(TallyNames(FirstAuthorsOf(Query(db, Everything))), Papers)
  }

  /** `get_most_active_first_authors`. */
  function MostActiveFirstAuthors(db: seq<Pub>, minPapers: int): (r: seq<Score>)
    ensures forall i :: 0 <= i < |r| ==> r[i].papers >= minPapers
    ensures SortedDesc(r, Papers)
  {
    var sorted := AuthorOrder(db);
    MaskIsPrefix(sorted, minPapers);
    Zip(NamesOf(sorted), MaskedCounts(sorted, minPapers))
  }

  /** In a descending sequence the mask keeps a prefix: the counts of the
      first `k` entries, and every later entry is below the threshold. */
  lemma {:induction false} MaskIsPrefix(sorted: seq<Score>, minPapers: int)
    requires SortedDesc(sorted, Papers)
    ensures var k := |MaskedCounts(sorted, minPapers)|;
      k <= |sorted|
      && (forall i :: 0 <= i < k ==> MaskedCounts(sorted, minPapers)[i] == sorted[i].papers >= minPapers)
      && (forall i :: k <= i < |sorted| ==> sorted[i].papers < minPapers)
    decreases |sorted|
  {
    if |sorted| > 0 {
      MaskIsPrefix(sorted[1..], minPapers);
      if sorted[0].papers < minPapers {
        assert forall i :: 0 < i < |sorted| ==> sorted[i].papers <= sorted[0].papers;
        NothingMasked(sorted[1..], minPapers);
      }
    }
  }

  lemma {:induction false} NothingMasked(sorted: seq<Score>, minPapers: int)
    requires forall i :: 0 <= i < |sorted| ==> sorted[i].papers < minPapers
    ensures MaskedCounts(sorted, minPapers) == []
    decreases |sorted|
  {
    if |sorted| > 0 {
      NothingMasked(sorted[1..], minPapers);
    }
  }

  /** Zipping all sorted names with the masked counts pairs each name with
      its own count, because the mask keeps a prefix: the result is the
      sorted tallies that reach `min_papers`. */
  lemma MaskedZipIsPrefix(db: seq<Pub>, minPapers: int)
    ensures var sorted := AuthorOrder(db);
      var r := MostActiveFirstAuthors(db, minPapers);
      r == sorted[..|r|]
      && (forall i :: 0 <= i < |r| ==> r[i].papers >= minPapers)
      && (forall i :: |r| <= i < |sorted| ==> sorted[i].papers < minPapers)
  {
    var sorted := AuthorOrder(db);
    MaskIsPrefix(sorted, minPapers);
  }

  /** Every returned author led as many related papers as reported, at
      least `min_papers`, and the list runs in non-increasing order. */
  lemma MostActiveFirstAuthorsSound(db: seq<Pub>, minPapers: int)
    ensures var names := FirstAuthorsOf(Query(db, Everything));
      var r := MostActiveFirstAuthors(db, minPapers);
      (forall i :: 0 <= i < |r| ==> r[i].papers == multiset(names)[r[i].name] && r[i].papers >= minPapers)
      && SortedDesc(r, Papers)
  {
    var names := FirstAuthorsOf(Query(db, Everything));
    var tallies := TallyNames(names);
    var sorted := AuthorOrder(db);
    var r := MostActiveFirstAuthors(db, minPapers);
    TallyNamesCounts(names);
    MaskedZipIsPrefix(db, minPapers);
    forall i | 0 <= i < |r| ensures r[i].papers == multiset(names)[r[i].name] {
      assert r[i] == sorted[i];
      assert sorted[i] in multiset(tallies);
    }
  }

  /** Every first author with at least `min_papers` related papers is
      returned. */
  lemma MostActiveFirstAuthorsComplete(db: seq<Pub>, minPapers: int, x: string)
    requires var names := FirstAuthorsOf(Query(db, Everything));
      x in names && multiset(names)[x] >= minPapers
    ensures exists i :: 0 <= i < |MostActiveFirstAuthors(db, minPapers)|
              && MostActiveFirstAuthors(db, minPapers)[i].name == x
  {
    var names := FirstAuthorsOf(Query(db, Everything));
    var tallies := TallyNames(names);
    var sorted := AuthorOrder(db);
    var r := MostActiveFirstAuthors(db, minPapers);
    TallyNamesKeys(names);
    TallyNamesCounts(names);
    MaskedZipIsPrefix(db, minPapers);
    var t := FindName(tallies, x).value;
    assert tallies[t] in multiset(sorted);
    var i :| 0 <= i < |sorted| && sorted[i] == tallies[t];
    assert sorted[i].papers >= minPapers;
    assert r[i] == sorted[i];
  }

  lemma {:induction false} SumPapersConcat(a: seq<Score>, b: seq<Score>)
    ensures SumPapers(a + b) == SumPapers(a) + SumPapers(b)
    decreases |b|
  {
    if |b| > 0 {
      assert (a + b)[..|a + b| - 1] == a + b[..|b| - 1];
      SumPapersConcat(a, b[..|b| - 1]);
    } else {
      assert a + b == a;
    }
  }

  /** The sum of the tallies does not depend on their order. */
  lemma {:induction false} SumPapersPermutation(a: seq<Score>, b: seq<Score>)
    requires multiset(a) == multiset(b)
    ensures SumPapers(a) == SumPapers(b)
    decreases |a|
  {
    if |a| > 0 {
      var n := |a| - 1;
      var x := a[n];
      assert a == a[..n] + [x];
      assert x in multiset(b);
      var k :| 0 <= k < |b| && b[k] == x;
      var rest := b[..k] + b[k + 1..];
      assert b == b[..k] + [x] + b[k + 1..];
      assert multiset(b) == multiset(b[..k]) + multiset{x} + multiset(b[k + 1..]);
      assert multiset(rest) == multiset(b[..k]) + multiset(b[k + 1..]);
      assert multiset(rest) == multiset(b) - multiset{x};
      assert multiset(a[..n]) == multiset(a) - multiset{x};
      SumPapersPermutation(a[..n], rest);
      SumPapersAppend(a[..n], x);
      SumPapersConcat(b[..k] + [x], b[k + 1..]);
      SumPapersAppend(b[..k], x);
      SumPapersConcat(b[..k], b[k + 1..]);
    }
  }

  /** All first-author tallies add up to the number of related papers. */
  lemma AuthorTalliesSum(db: seq<Pub>)
    ensures SumPapers(AuthorOrder(db)) == |Query(db, Everything)|
  {
    var names := FirstAuthorsOf(Query(db, Everything));
    TallyNamesSum(names);
    SumPapersPermutation(TallyNames(names), AuthorOrder(db));
  }
}

=== FILE: records.dfy ===
/** The publication database seen as an in-memory sequence of records, and
    `query`: the mission/science/year filter that every listing, tally and
    ranking starts from. */
module Records {
  import opened Wrappers

  /** One stored publication: the fields of its ADS metadata the tallies
      read. `property` and `citationCount` are `None` where the stored
      value is JSON null; the keys themselves are always present. */
  datatype Pub = Pub(
    bibcode: string,
    year: nat,
    month: string,
    mission: string,
    science: string,
    property: Option<seq<string>>,
    citationCount: Option<nat>,
    authorNorm: seq<string>,
    firstAuthorNorm: string)

  /** The mission value that marks a paper as not belonging to any mission. */
  const UnrelatedMission: string := "unrelated"

  /** The `year` argument of `query`: absent, one year, or a list of years. */
  datatype YearFilter = AnyYear | OneYear(year: nat) | Years(years: seq<nat>)

  /** The arguments of `query`. */
  datatype Filter = Filter(mission: Option<string>, science: Option<string>, year: YearFilter)

  /** The filter of a call with no arguments: every related paper. */
  const Everything: Filter := Filter(None, None, AnyYear)

  predicate MissionOk(mission: Option<string>, p: Pub) {
    match mission
    case None => p.mission != UnrelatedMission
    case Some(m) => p.mission == m
  }

  predicate ScienceOk(science: Option<string>, p: Pub) {
    match science
    case None => true
    case Some(s) => p.science == s
  }

  predicate YearOk(year: YearFilter, p: Pub) {
    match year
    case AnyYear => true
    case OneYear(y) => p.year == y
    case Years(ys) => p.year in ys
  }

  /** The WHERE clause `query` builds, as a predicate on one record. */
  predicate Selects(f: Filter, p: Pub) {
    MissionOk(f.mission, p) && ScienceOk(f.science, p) && YearOk(f.year, p)
  }

  /** The rows `query` returns, in stored order. */
  function Query(db: seq<Pub>, f: Filter): (rows: seq<Pub>)
    ensures |rows| <= |db|
    ensures forall k :: 0 <= k < |rows| ==> Selects(f, rows[k])
    decreases |db|
  {
    if |db| == 0 then []
    else
      var init := Query(db[..|db| - 1], f);
      var last := db[|db| - 1];
      if Selects(f, last) then init + [last] else init
  }

  /** A record is returned exactly when it is stored and passes the filter. */
  lemma {:induction false} QueryMembers(db: seq<Pub>, f: Filter)
    ensures forall p :: p in Query(db, f) <==> p in db && Selects(f, p)
    decreases |db|
  {
    if |db| > 0 {
      var init := db[..|db| - 1];
      QueryMembers(init, f);
      assert db == init + [db[|db| - 1]];
    }
  }

  /** Querying keeps stored order: the result of a concatenation is the
      concatenation of the results. */
  lemma {:induction false} QueryAppend(a: seq<Pub>, b: seq<Pub>, f: Filter)
    ensures Query(a + b, f) == Query(a, f) + Query(b, f)
    decreases |b|
  {
    if |b| == 0 {
      assert a + b == a;
    } else {
      var n := |b| - 1;
      assert (a + b)[..|a + b| - 1] == a + b[..n];
      QueryAppend(a, b[..n], f);
    }
  }

  /** Every returned record passes the filter, so querying again with the
      same arguments changes nothing. */
  lemma {:induction false} QueryIdempotent(db: seq<Pub>, f: Filter)
    ensures Query(Query(db, f), f) == Query(db, f)
    decreases |db|
  {
    if |db| > 0 {
      var init := db[..|db| - 1];
      QueryIdempotent(init, f);
      var last := db[|db| - 1];
      if Selects(f, last) {
        var q := Query(init, f);
        assert (q + [last])[..|q + [last]| - 1] == q;
      }
    }
  }

  /** Without a mission argument "unrelated" papers never appear; naming a
      mission returns only that mission's papers. */
  lemma MissionFilter(db: seq<Pub>, f: Filter)
    ensures f.mission.None? ==> forall p :: p in Query(db, f) ==> p.mission != UnrelatedMission
    ensures f.mission.Some? ==> forall p :: p in Query(db, f) ==> p.mission == f.mission.value
  {
    QueryMembers(db, f);
  }
}

=== FILE: text.dfy ===
/** Character and string helpers shared by the classifier and the legacy
    spreadsheet checks: ASCII case predicates and case mapping, Python's
    `str.isupper`, `str.strip` and `str.split`, literal substring search and
    the decimal rendering of `str(n)`. */
module Text {

  predicate IsUpperChar(c: char) { 'A' <= c <= 'Z' }

  predicate IsLowerChar(c: char) { 'a' <= c <= 'z' }

  predicate IsDigit(c: char) { '0' <= c <= '9' }

  /** The characters `str.strip()` removes at either end (ASCII part of
      Python's whitespace class). */
  predicate IsSpace(c: char) {
    c == ' ' || c == '\t' || c == '\n' || c == '\r' || c == '\U{B}' || c == '\U{C}'
    || ('\U{1C}' <= c <= '\U{1F}')
  }

  function LowerChar(c: char): char {
    if IsUpperChar(c) then (c as int + 32) as char else c
  }

  function UpperChar(c: char): char {
    if IsLowerChar(c) then (c as int - 32) as char else c
  }

  function Lower(s: string): string {
    seq(|s|, i requires 0 <= i < |s| => LowerChar(s[i]))
  }

  function Upper(s: string): string {
    seq(|s|, i requires 0 <= i < |s| => UpperChar(s[i]))
  }

  /** Python's `str.isupper()`: at least one cased character and none of
      them lower-case. */
  predicate IsAllCaps(s: string) {
    && (exists i :: 0 <= i < |s| && IsUpperChar(s[i]))
    && (forall i :: 0 <= i < |s| ==> !IsLowerChar(s[i]))
  }

  predicate IsPrefix(p: string, s: string) {
    |p| <= |s| && s[..|p|] == p
  }

  /** Literal substring search: what `re.search` does for a pattern without
      regular-expression metacharacters. */
  predicate IsSubstring(p: string, s: string)
    decreases |s|
  {
    IsPrefix(p, s) || (|s| > 0 && IsSubstring(p, s[1..]))
  }

  lemma {:induction false} SubstringAt(p: string, s: string, i: nat)
    requires i <= |s| && IsPrefix(p, s[i..])
    ensures IsSubstring(p, s)
    decreases i
  {
    if i > 0 {
      assert s[1..][i - 1..] == s[i..];
      SubstringAt(p, s[1..], i - 1);
    }
  }

  lemma {:induction false} SubstringWitness(p: string, s: string) returns (i: nat)
    requires IsSubstring(p, s)
    ensures i + |p| <= |s| && s[i..i + |p|] == p
    decreases |s|
  {
    if IsPrefix(p, s) {
      i := 0;
    } else {
      var k := SubstringWitness(p, s[1..]);
      assert s[1..][k..k + |p|] == s[k + 1..k + 1 + |p|];
      i := k + 1;
    }
  }

  lemma LowerIdempotent(s: string)
    ensures Lower(Lower(s)) == Lower(s)
  {
  }

  lemma LowerUpper(s: string)
    ensures Lower(Upper(s)) == Lower(s)
  {
  }

  /** Python's `str.split(sep)`: the pieces between separators, in order;
      always at least one piece. */
  function Split(s: string, sep: char): (parts: seq<string>)
    ensures |parts| >= 1
    ensures forall k :: 0 <= k < |parts| ==> sep !in parts[k]
    decreases |s|
  {
    if |s| == 0 then [""]
    else
      var rest := Split(s[1..], sep);
      if s[0] == sep then [""] + rest
      else [[s[0]] + rest[0]] + rest[1..]
  }

  /** A string without the separator is a single piece. */
  lemma {:induction false} SplitWithoutSeparator(s: string, sep: char)
    requires sep !in s
    ensures Split(s, sep) == [s]
    decreases |s|
  {
    if |s| > 0 {
      assert sep !in s[1..];
      SplitWithoutSeparator(s[1..], sep);
      assert s == [s[0]] + s[1..];
    }
  }

  /** The first piece ends at the first separator. */
  lemma {:induction false} SplitAtSeparator(a: string, b: string, sep: char)
    requires sep !in a
    ensures Split(a + [sep] + b, sep) == [a] + Split(b, sep)
    decreases |a|
  {
    var s := a + [sep] + b;
    if |a| == 0 {
      assert s[1..] == b;
    } else {
      assert s[1..] == a[1..] + [sep] + b;
      assert sep !in a[1..];
      SplitAtSeparator(a[1..], b, sep);
      assert a == [a[0]] + a[1..];
    }
  }

  /** `sep.join(parts)`, the inverse of `Split`. */
  function Join(parts: seq<string>, sep: char): string
    requires |parts| >= 1
    decreases |parts|
  {
    if |parts| == 1 then parts[0] else parts[0] + [sep] + Join(parts[1..], sep)
  }

  lemma {:induction false} SplitJoin(s: string, sep: char)
    ensures Join(Split(s, sep), sep) == s
    decreases |s|
  {
    if |s| > 0 {
      var rest := Split(s[1..], sep);
      SplitJoin(s[1..], sep);
      if s[0] == sep {
        assert Join([""] + rest, sep) == "" + [sep] + Join(rest, sep);
        assert s == [s[0]] + s[1..];
      } else {
        var parts := [[s[0]] + rest[0]] + rest[1..];
        if |rest| == 1 {
          assert Join(parts, sep) == [s[0]] + rest[0];
        } else {
          assert parts[1..] == rest[1..];
          assert Join(parts, sep) == [s[0]] + rest[0] + [sep] + Join(rest[1..], sep);
        }
        assert s == [s[0]] + s[1..];
      }
    }
  }

  /** `str.strip()`: the input without its leading and trailing whitespace. */
  function Strip(s: string): (t: string)
    ensures |t| <= |s|
    ensures |t| > 0 ==> !IsSpace(t[0]) && !IsSpace(t[|t| - 1])
  {
    StripRight(StripLeft(s))
  }

  function StripLeft(s: string): (t: string)
    ensures |t| <= |s| && t == s[|s| - |t|..]
    ensures |t| > 0 ==> !IsSpace(t[0])
    ensures forall k :: 0 <= k < |s| - |t| ==> IsSpace(s[k])
    decreases |s|
  {
    if |s| > 0 && IsSpace(s[0]) then StripLeft(s[1..]) else s
  }

  function StripRight(s: string): (t: string)
    ensures |t| <= |s| && t == s[..|t|]
    ensures |t| > 0 ==> !IsSpace(t[|t| - 1])
    ensures forall k :: |t| <= k < |s| ==> IsSpace(s[k])
    decreases |s|
  {
    if |s| > 0 && IsSpace(s[|s| - 1]) then StripRight(s[..|s| - 1]) else s
  }

  /** The decimal digit for `d`. */
  function DigitChar(d: nat): char
    requires d < 10
  {
    ('0' as int + d) as char
  }

  /** `str(n)` for a natural number: decimal digits, no leading zero. */
  function ShowNat(n: nat): (s: string)
    ensures |s| >= 1
    ensures forall k :: 0 <= k < |s| ==> IsDigit(s[k])
    ensures n > 0 ==> s[0] != '0'
    decreases n
  {
    if n < 10 then [DigitChar(n)] else ShowNat(n / 10) + [DigitChar(n % 10)]
  }

  /** The value of a string of decimal digits (`int(s)`). */
  function DigitsValue(s: string): nat
    requires forall k :: 0 <= k < |s| ==> IsDigit(s[k])
    decreases |s|
  {
    if |s| == 0 then 0
    else
      assert IsDigit(s[|s| - 1]);
      DigitsValue(s[..|s| - 1]) * 10 + (s[|s| - 1] as int - '0' as int)
  }

  lemma {:induction false} ShowNatValue(n: nat)
    ensures DigitsValue(ShowNat(n)) == n
    decreases n
  {
    if n >= 10 {
      var s := ShowNat(n);
      assert s[..|s| - 1] == ShowNat(n / 10);
      ShowNatValue(n / 10);
    }
  }

  /** Distinct numbers print differently. */
  lemma ShowNatInjective(m: nat, n: nat)
    requires ShowNat(m) == ShowNat(n)
    ensures m == n
  {
    ShowNatValue(m);
    ShowNatValue(n);
  }
}

=== FILE: wrappers.dfy ===
/** Optional values and failing computations, shared by the other modules. */
module Wrappers {
  datatype Option<T> = None | Some(value: T)

  /** A computation that yields a value or fails with an error. */
  datatype Result<T, E> = Success(value: T) | Failure(error: E)
}
